=== FILE: README.md ===
# Task manager core, modelled in Dafny

A model of a small task-management web application:

- An Express/Mongoose API lets a signed-in user list, read, create, update and delete their own tasks.
- It also reports per-status and per-priority counts.
- Users register, log in, verify their token, edit their profile and change their password.
- On the client, two stores hold the task list and the session:
  - the session is mirrored in local storage;
  - a statistics panel turns the counts into cards;
  - a form creates and edits tasks.

How the parts are modelled:

- **API handlers.** Each handler is a pure function. It takes the caller's id, the request and the collection, and returns the reply: HTTP status, body, and the collection afterwards.
- **Collection.** It is a map from ids to records, together with a fresh-id allocator (`Tables`).
- **Client actions.** Each asynchronous store action is one atomic transition. It goes from the state before the call to the state after the reply. The reply is a parameter: either the data delivered, or a refusal carrying the server's message if there is one.

Modules, one per file:

- `Common`, `Strings`, `Tables`, `Sorting`: shared pieces. Options, JavaScript string operations, the collection, and a stable sort.
- `TaskModel`: the task schema. Enumerations, defaults, validators, creation, and the update setters.
- `TaskController`, `TaskControllerFacts`: the task handlers, and properties relating their replies to the collection.
- `AuthController`: the account handlers.
- `Remote`: how a client action sees the API, and the `message || fallback` error text.
- `TaskStore`, `AuthStore`: the client stores.
- `TaskStatsView`: the statistics cards.
- `TaskForm`: the task form.

A create request without a title is refused with 400 `Please provide a title` by the handler itself (backend/src/controllers/taskController.js:71-73), before the schema's `required` validator is reached.

## Model

| member | source | states |
|---|---|---|
| TaskModel.ParseStatus | backend/src/models/Task.js:22-26 | a status text is accepted exactly when it is the label of a status, and then yields that status |
| TaskModel.ParsePriority | backend/src/models/Task.js:27-31 | a priority text is accepted exactly when it is the label of a priority, and then yields that priority |
| TaskModel.CastTitle | backend/src/models/Task.js:5-11 | the stored title is the trimmed input; it is accepted exactly when the trimmed length, counted in UTF-16 code units as JavaScript's `.length` counts, is between 3 and 100 |
| TaskModel.NewTask | backend/src/models/Task.js:3-50 | a new document exists exactly when the title, the description (at most 1000 UTF-16 code units) and the priority pass; it then carries the defaults: status pending, priority medium when absent, description "" |
| TaskModel.ApplyChanges | backend/src/controllers/taskController.js:108-115 | an update succeeds exactly when every field being set passes its validator; absent fields keep their values; only the editable fields and updatedAt change; a valid task stays valid |
| TaskController.SelectAll | backend/src/controllers/taskController.js:11-20 | a task is kept exactly when it is the caller's and matches every non-empty status, priority and search parameter, and filtering a list without repeats gives a list without repeats |
| TaskController.SelectOrder | backend/src/controllers/taskController.js:23-25 | only the exact texts "due-date" and "priority" select a non-default order; anything else, absent included, gives the default |
| TaskController.SortKey | backend/src/controllers/taskController.js:23-25 | how two tasks compare under each order: newest first by default; due date ascending with undated tasks on the side `nullsFirst` names; priority rank ascending; every tie broken newest first |
| Tables.ScanDistinct | backend/src/controllers/taskController.js:27 | when no two ids hold the same record, a scan meets each record once |
| Sorting.PermutationDistinct | backend/src/controllers/taskController.js:27 | reordering a list without repeats, as the sort does, cannot create one |
| TaskController.ListTasks | backend/src/controllers/taskController.js:6-33 | always 200 with the collection unchanged and `count` equal to the number of listed tasks; every listed task is stored and selected, every selected stored task is listed, and in a valid collection none is listed twice; the list is ordered by the key the sort parameter picks |
| TaskControllerFacts.ListedTasksAreOwn | backend/src/controllers/taskController.js:11-27 | whatever the status, priority, search and sort parameters, every listed task is the caller's |
| TaskControllerFacts.ListedIffSelected | backend/src/controllers/taskController.js:11-27 | a stored task is in the listing if and only if the filter selects it |
| TaskControllerFacts.StatusFilterExact | backend/src/controllers/taskController.js:13 | with only `status` given, exactly the caller's tasks whose status label equals it are listed |
| TaskControllerFacts.PriorityFilterExact | backend/src/controllers/taskController.js:14 | with only `priority` given, exactly the caller's tasks whose priority label equals it are listed |
| TaskControllerFacts.UnfilteredListsOwnTasks | backend/src/controllers/taskController.js:11 | with no filter parameter, every task of the caller and no other task is listed |
| TaskControllerFacts.PriorityRankFollowsLabels | backend/src/controllers/taskController.js:25 | the priority sort compares the labels as strings, so high < low < medium |
| TaskControllerFacts.ListOrder | backend/src/controllers/taskController.js:22-27 | for any two listed tasks in order: newest first by default; by due date ascending for "due-date", with undated tasks all on one side; by priority label ascending for "priority"; ties newest first |
| TaskController.GetTask | backend/src/controllers/taskController.js:42-58 | 404 exactly for a missing id, 403 exactly for another user's task, otherwise 200 with the stored task; the collection is unchanged |
| TaskController.CreateTask | backend/src/controllers/taskController.js:67-87 | 400 exactly when the title is absent or empty; 201 exactly when, besides, the trimmed title has 3 to 100 UTF-16 code units, the description at most 1000 and the priority (if given) is a priority label, and 500 otherwise; on 201 the new task is the caller's, pending, with trimmed title, the given description, due date, tags and priority (medium when absent), stamped with the current time and stored under a fresh id with every other task untouched; a valid collection stays valid |
| TaskControllerFacts.CreatedTagsRoundTrip | backend/src/controllers/taskController.js:75-82 | tags sent on creation come back unchanged and in order from a later fetch |
| TaskController.UpdateTask | backend/src/controllers/taskController.js:96-119 | 404 exactly for a missing id and 403 exactly for another user's task, both leaving the collection unchanged; 200 exactly when, besides, every field being set passes its validator, and 500 otherwise; on 200 only that task changes: each given field takes the given value (the title trimmed), each absent one keeps its value, and updatedAt is the current time |
| TaskController.DeleteTask | backend/src/controllers/taskController.js:129-147 | 404 and 403 as for reads; on 200 exactly that id leaves the collection and the other tasks are untouched |
| TaskControllerFacts.MissingIdIsNotFoundForEveryone | backend/src/controllers/taskController.js:44-48 | for a missing id the reply does not depend on the caller |
| TaskControllerFacts.ForeignTaskForbidden | backend/src/controllers/taskController.js:51-53 | another user's task is never returned, changed or deleted |
| TaskController.NonEmpty | backend/src/controllers/taskController.js:160-165 | the grouping omits empty categories: it keeps exactly the groups with a positive count, and keeps the total and the distinctness of ids |
| TaskController.StatusPartition | backend/src/controllers/taskController.js:158-166 | the caller's tasks split into the three status classes, so their sizes add up to the caller's task count |
| TaskController.PriorityPartition | backend/src/controllers/taskController.js:168-176 | the caller's tasks split into the three priority classes, so their sizes add up to the caller's task count |
| TaskController.StatusGroupsContent | backend/src/controllers/taskController.js:158-166 | the status grouping has one group per status the caller uses, labelled with the status and counting its tasks; ids are distinct and the counts add up to the caller's task count |
| TaskController.PriorityGroupsContent | backend/src/controllers/taskController.js:168-176 | the same for the priority grouping |
| TaskController.TaskStats | backend/src/controllers/taskController.js:156-182 | 200 with both groupings: a group is present for a category exactly when the caller has tasks in it, with that count; both totals equal the caller's task count |
| AuthController.FindByEmail | backend/src/controllers/authController.js:28 | a lookup by email finds a user with that email, and finds none exactly when no stored user has it |
| AuthController.Register | backend/src/controllers/authController.js:14-48 | 400 exactly for missing fields or mismatched passwords; in a valid collection 409 exactly for a taken email; on 201 exactly one user is added under a fresh id, holding the given name, email and password, no bio or avatar, and the current time as updatedAt, and the token is for that id; unique emails are preserved |
| AuthController.RegisterValidatesFirst | backend/src/controllers/authController.js:19-25 | the 400 checks come before any lookup: the reply is the same whatever the collection |
| AuthController.Login | backend/src/controllers/authController.js:57-86 | 400 exactly for a missing email or password; a 200 carries the token and profile of a user with that email who accepts the password, and with unique emails 200 happens exactly when such a user exists; every other outcome is the same 401 reply; nothing is stored |
| AuthController.LoginFailuresIndistinguishable | backend/src/controllers/authController.js:67-76 | an unknown email and a wrong password give identical replies |
| AuthController.RegisterThenLogin | backend/src/controllers/authController.js:34-41 | a user who has just registered can log in with the same credentials and gets a token for the new id |
| AuthController.VerifyToken | backend/src/controllers/authController.js:95-105 | 404 exactly when the token's user is gone, otherwise 200 with that user's public fields |
| AuthController.LoginThenVerify | backend/src/controllers/authController.js:78-105 | the token a login issues is for the user it returns, and verifying that user answers 200 with the same profile |
| AuthController.RegisterThenVerify | backend/src/controllers/authController.js:34-48 | right after registering, verifying the new user answers 200 with the profile the registration returned |
| AuthController.UpdateProfile | backend/src/controllers/authController.js:114-131 | 404 exactly for a missing user; otherwise name, bio and avatar take the given values, absent ones are kept, updatedAt is set and nothing else changes |
| AuthController.ChangePassword | backend/src/controllers/authController.js:140-168 | 400 for missing or mismatched new passwords, then 404 for a missing user, then 401 for a wrong current password, each exactly; only a request passing all three stores the new password, and it changes nothing else |
| Remote.ErrorText | frontend/contexts/taskStore.js:30 | the error text is the server's message when it sent a non-empty one, and the action's fallback otherwise |
| TaskStore.SetFilters | frontend/contexts/taskStore.js:15-17 | the filters are replaced and nothing else changes |
| TaskStore.FetchTasks | frontend/contexts/taskStore.js:19-33 | loading ends either way; on success the list is the server's list; on failure the list stays and the error is the message or 'Failed to fetch tasks' |
| TaskStore.FetchListsSelected | frontend/contexts/taskStore.js:15-24 | after the filters are set, a fetch holds exactly the caller's tasks that the filters select, an empty field selecting everything, in the order the sort field picks |
| TaskStore.InitialFetchListsOwnTasks | frontend/contexts/taskStore.js:8-13 | the initial, empty filters make a fetch list exactly the caller's tasks |
| TaskStore.FetchStats | frontend/contexts/taskStore.js:35-46 | on success the stats are the server's; on failure nothing changes and the error falls back to 'Failed to fetch stats'; the loading flag is not touched |
| TaskStore.FetchedStatsShowOwnCounts | frontend/contexts/taskStore.js:35-39 | stats fetched from the server make the cards show the caller's task total and per-status counts, with the task list untouched |
| TaskStore.CreateTask | frontend/contexts/taskStore.js:48-64 | on success the created task is put in front of the unchanged list and returned; on failure the list stays |
| TaskStore.ReplaceById | frontend/contexts/taskStore.js:71-73 | the mapped list has the same length, with the server's copy at each position whose task has the id and the old task everywhere else |
| TaskStore.UpdateTask | frontend/contexts/taskStore.js:66-84 | on success every task with the id is replaced in place by the server's copy and the others stay where they are; on failure the list stays |
| TaskStore.UpdateKeepsIds | frontend/contexts/taskStore.js:71-73 | an update whose server copy carries the requested id keeps the ids at every position |
| TaskStore.RemoveById | frontend/contexts/taskStore.js:91 | the filtered list holds exactly the tasks without the id, in their relative order, and is shorter by the number of tasks with the id |
| TaskStore.DeleteTask | frontend/contexts/taskStore.js:86-102 | on success the tasks left are exactly those without the id, in their original relative order, and the list shrinks by the number removed; on failure the list stays |
| TaskStore.CreateThenDelete | frontend/contexts/taskStore.js:52-54 | deleting a task just created under a new id restores the list that creation started from |
| AuthStore.InitAuth | frontend/contexts/authStore.js:11-40 | nothing happens unless both keys hold non-empty text and the stored user parses; a confirmed token signs in with the server's user and rewrites the stored user; a refused one clears both keys and signs out; consistency and the storage mirror are preserved |
| AuthStore.SignIn | frontend/contexts/authStore.js:43-94 | register and login: success signs in with the returned token and user, stores both in local storage and ends loading; failure changes only the loading flag, which ends false, with the fallback 'Registration failed' or 'Login failed'; consistency and the storage mirror are preserved |
| AuthStore.Logout | frontend/contexts/authStore.js:97-105 | the session leaves the store, leaving it signed out and consistent; both keys leave local storage, and every other key stays |
| AuthStore.UpdateProfile | frontend/contexts/authStore.js:108-125 | on success the server's user replaces the held and the stored user, with the token untouched; failure falls back to 'Update failed'; consistency and the mirror are preserved |
| AuthStore.InitialConsistent | frontend/contexts/authStore.js:5-8 | the store starts signed out, with the flag agreeing with the token |
| AuthStore.SessionSurvivesReload | frontend/contexts/authStore.js:12-28 | after a login, a fresh store restores the same token from local storage and, once confirmed, holds the server's user |
| AuthStore.LogoutSurvivesReload | frontend/contexts/authStore.js:97-105 | after a logout, a fresh store finds nothing to restore |
| AuthStore.RefusedVerificationSignsOut | frontend/contexts/authStore.js:29-37 | a refused verification ends signed out with neither key stored |
| TaskStatsView.Put | frontend/components/TaskStats.jsx:8 | assigning a property keeps the keys distinct and adds exactly that key to the object's keys |
| TaskStatsView.PutLookup | frontend/components/TaskStats.jsx:8 | after the assignment the property reads as the assigned value and every other property reads as before |
| TaskStatsView.PutAppends | frontend/components/TaskStats.jsx:8 | assigning a property the object lacks appends it after all the others |
| TaskStatsView.Collect | frontend/components/TaskStats.jsx:6-9 | the fold produces a plain object, whose keys are distinct |
| TaskStatsView.CollectKeepsLast | frontend/components/TaskStats.jsx:6-9 | after the forEach fold, each key holds the count of the last group with that id |
| TaskStatsView.CollectDistinctTotal | frontend/components/TaskStats.jsx:25 | with distinct ids, the object's values add up to the total of the group counts |
| TaskStatsView.Render | frontend/components/TaskStats.jsx:3-28 | no cards without stats; each status card shows its status's count or 0; Total is the sum of the counts when ids are distinct |
| TaskStatsView.CardShowsStatusCount | frontend/components/TaskStats.jsx:26-28 | for the server's grouping, a status card shows the number of the caller's tasks with that status, 0 when there are none |
| TaskStatsView.CardsMatchStore | frontend/components/TaskStats.jsx:25-28 | end to end, the cards drawn from the stats reply show the caller's task count and per-status counts |
| TaskForm.InitialForm | frontend/components/TaskForm.jsx:7-16 | a blank form has the default fields; a form opened on a task shows its title, description, priority and status labels, its due date as `dateText` renders it (none for a null date), and holds its tag list itself |
| TaskForm.Edit | frontend/components/TaskForm.jsx:20-23 | an edit sets the named field to the input's text and leaves the rest; typed tags are text |
| TaskForm.ParseTags | frontend/components/TaskForm.jsx:31 | empty text gives no tags; otherwise tag i is the i-th comma-separated segment trimmed, one per segment, each comma-free |
| TaskForm.ParseJoinedTags | frontend/components/TaskForm.jsx:31 | parsing the comma-joined text of trimmed, comma-free tags returns those tags, unless the list is [""] |
| TaskForm.SubmitAsWritten | frontend/components/TaskForm.jsx:29-47 | a submission throws exactly when the tags field holds a list; otherwise it sends the form fields with the parsed tags, as a POST to the collection for a new task and a PUT to the task otherwise |
| TaskForm.UneditedSaveThrows | frontend/components/TaskForm.jsx:7-8 | saving an opened task without retyping its tags throws, for every task |
| TaskForm.Submit | frontend/components/TaskForm.jsx:29-47 | always sends; agrees with the code as written whenever that sends; passes the other fields through; tags are trimmed and comma-free |
| TaskForm.EditedTagsAgree | frontend/components/TaskForm.jsx:22 | once the tags field has been typed into, both readings send the same request |
| TaskForm.UneditedSaveKeepsTags | frontend/components/TaskForm.jsx:36-41 | saving an opened task unchanged sends a PUT for it, carrying its own tags and fields |
| TaskForm.BlankFormPosts | frontend/components/TaskForm.jsx:8-15 | the blank form posts the default priority and status with no tags |
| Strings.Trim | backend/src/models/Task.js:8 | the trimmed text has no white space left at either end and is never longer than the input |
| Strings.TrimIsSlice | backend/src/models/Task.js:8 | the trimmed text is the run of the input that starts where its leading white space ends, and everything before and after that run is white space |
| Strings.JsLength | backend/src/models/Task.js:9-15 | the length the schema's validators compare is between the character count and twice it |
| Strings.JsLengthAppend | backend/src/models/Task.js:9-15 | that length is additive over concatenation and a single character counts its own code units, two above U+FFFF and one otherwise, which fixes the length of every string |
| Strings.JsLengthCountsPairs | backend/src/models/Task.js:9-10 | that length equals the character count exactly when no character lies above U+FFFF, and is twice it exactly when every one does |
| TaskModel.PairedTitleAccepted | backend/src/models/Task.js:5-11 | a title of two emoji has length 4 and is stored as it is |
| Strings.SplitJoin | frontend/components/TaskForm.jsx:31 | splitting at a separator undoes joining with it, for separator-free parts |
| Tables.Insert | backend/src/controllers/taskController.js:75-82 | an insert adds exactly the fresh id, with the given record, and leaves every other record |
| Tables.Scan | backend/src/controllers/taskController.js:27 | a scan lists only stored records, and all of them |
| Sorting.SortBy | backend/src/controllers/taskController.js:27 | the result is ordered by the key and is a permutation of the input |

## Left out

- Password hashing, JWT signing and verification, and the `protect` middleware: these are parameters. The middleware's result is the `caller` argument, the user model's `comparePassword` is `compare`, and the token for an id is `sign(id)`.
- The user schema is not part of this model. Emails are compared as given, with no lowercasing. No validation on user fields is modelled, and `toJSON` is taken to drop only the password. The user record holds only the fields the handlers read or write, so the model has no `createdAt` on users.
- TaskController.ListTasks: the search parameter is used as a regular expression, matched case-insensitively against title and description. Regular expressions are not modelled; `matches(pattern, text)` is a parameter. An invalid pattern makes the database throw, giving a 500 reply; that path is not modelled.
- TaskController.ListTasks: with `sort=due-date` the database places tasks without a due date at one end. Which end is the parameter `nullsFirst`. Ties on every sort field keep id order, while the database leaves such ties unspecified.
- The statistics: MongoDB's `$match` on a string user id is taken to select the caller's tasks. The groups are produced in status order and priority order, while the database returns them in no stated order.
- Database and network failures, and every other thrown error, are not modelled. Validation failures are the exception: they are modelled as a 500 reply with the collection unchanged.
- Malformed ids (a `CastError`) are not modelled.
- TaskModel.Changes, TaskController.UpdateTask: `None` stands for both `undefined` and `null`, and an absent field leaves the stored value. This assumes Mongoose 6 or later, which drops `undefined` keys from `$set`; the source pins no version. An explicit `null` is not modelled. In the source, `PUT {title: null}` fails the `required` update validator and gets 500, while the model keeps the title and answers 200. The same holds for `null` given for the other fields.
- AuthController.ProfileChanges, AuthController.UpdateProfile: the same reading of `None` as both `undefined` and `null`, resting on the same Mongoose 6 assumption. The handler passes `{ name, bio, avatar, updatedAt }` to `findByIdAndUpdate` (backend/src/controllers/authController.js:118-122). Under Mongoose 5, `PUT {bio: "x"}` would set `name` and `avatar` to null, and an explicit `{bio: null}` stores null. In both cases the model keeps the stored values.
- TaskController.CreateTask, TaskModel.NewTask: an explicit `null` for `description` or `priority` is read as absent. In the source, `POST {title: "abc", description: null}` stores a null description, while the model stores the default "".
- Dates are integers. `Date.now()` is the parameter `now`. The form shows a stored due date through the parameter `dateText`.
- Request fields and query parameters are taken to be strings (or absent). Express's query parser and `express.json()` can also produce objects and arrays, and the handlers pass these unchanged into MongoDB filters. Operator objects are not modelled. For example, `GET /api/tasks?status[$ne]=pending` lists every task that is not pending (backend/src/controllers/taskController.js:13), and a register request with `{"email": {"$ne": null}}` answers 409 whenever any user exists (backend/src/controllers/authController.js:28).
- `Strings.IsSpace` takes space, tab, newline and carriage return as white space. JavaScript's `trim` also removes the other Unicode space characters.
- JSON encoding of the stored user is the parameter pair `stringify`/`parse`.
- The intermediate states of client actions are not modelled: the `isLoading: true` set before each await, and the provisional sign-in `initAuth` makes before verifying. Overlapping actions are not modelled either.
- Rendering, toasts, routing and the Express wiring are not modelled.
- TaskForm.Payload carries only the six form fields. For an opened task, the spread also sends the task's other stored fields (id, owner, timestamps), which the update handler does not read.
- `TaskForm` network replies are not modelled. The model stops at the request a submission sends, and the `isLoading` flag of the form is not represented.

## Findings

| source | as written | input that shows it | evidently intended | confidence | as-written member | corrected member |
|---|---|---|---|---|---|---|
| frontend/components/TaskForm.jsx:31 | when the form is opened on an existing task, `formData.tags` is that task's tag array, and `formData.tags.split(',')` is called on it. An array is truthy even when empty, and it has no `split`, so a TypeError is thrown before the `try`. No request is sent and the loading flag stays set. | open any existing task for editing and press save without touching the tags field | the tags field is read as the text it shows (the tags joined by commas), so an unedited task is saved with its own tags | high; not executed | TaskForm.SubmitAsWritten, TaskForm.UneditedSaveThrows | TaskForm.Submit, TaskForm.UneditedSaveKeepsTags |

=== FILE: auth_controller.dfy ===
/** The account API handlers as decision functions over the user collection.
    Password hashing is hidden behind `compare(stored, candidate)`, the
    user model's `comparePassword`; a session token is `sign(id)`, an opaque
    function of the user id. */
module AuthController {
  import opened Common
  import Tables

  type UserId = nat
  type Date = int

  datatype User = User(
    id: UserId,
    name: string,
    email: string,
    password: string,
    bio: Option<string>,
    avatar: Option<string>,
    updatedAt: Date)

  /** A user as the API shows it: everything but the password. */
  datatype Profile = Profile(id: UserId, name: string, email: string,
                             bio: Option<string>, avatar: Option<string>, updatedAt: Date)

  function Public(u: User): Profile {
    Profile(u.id, u.name, u.email, u.bio, u.avatar, u.updatedAt)
  }

  type UserDb = Tables.Table<User>

  /** Ids come from the allocator, each user is stored under its own id and
      no two users share an email. */
  predicate UsersValid(db: UserDb) {
    && db.Valid()
    && (forall k :: k in db.rows ==> db.rows[k].id == k)
    && (forall j, k :: j in db.rows && k in db.rows && db.rows[j].email == db.rows[k].email ==> j == k)
  }

  predicate EmailTaken(db: UserDb, email: string) {
    exists k :: k in db.rows && db.rows[k].email == email
  }

  datatype Body =
    | Session(token: string, user: Profile)
    | Account(user: Profile)
    | Note(message: string)

  datatype Reply = Reply(code: int, body: Body, db: UserDb)

  const InvalidCredentials := "Invalid credentials"
  const UserNotFound := "User not found"

  /** The first user, in scan order, with this email (`findOne`). */
  function FirstWithEmail(s: seq<User>, email: string): (r: Option<User>)
    ensures r.Some? ==> r.value in s && r.value.email == email
    ensures r.None? ==> forall i :: 0 <= i < |s| ==> s[i].email != email
  {
    if |s| == 0 then None
    else if s[0].email == email then Some(s[0])
    else FirstWithEmail(s[1..], email)
  }

  /** A scan of a valid collection meets every user with a taken email. */
  lemma TakenEmailIsScanned(db: UserDb, email: string)
    ensures db.Valid() && EmailTaken(db, email) ==>
      exists i :: 0 <= i < |Tables.Scan(db)| && Tables.Scan(db)[i].email == email
  {
    if db.Valid() && EmailTaken(db, email) {
      var k :| k in db.rows && db.rows[k].email == email;
      assert db.rows[k] in Tables.Scan(db);
    }
  }

  /** `User.findOne({ email })`. */
  function FindByEmail(db: UserDb, email: string): (r: Option<User>)
    ensures r.Some? ==> r.value in db.rows.Values && r.value.email == email
    ensures db.Valid() ==> (r.None? <==> !EmailTaken(db, email))
  {
    TakenEmailIsScanned(db, email);
    FirstWithEmail(Tables.Scan(db), email)
  }

  // ----------------------------------------------------------- register

  datatype RegisterBody = RegisterBody(name: Option<string>, email: Option<string>,
                                       password: Option<string>, passwordConfirm: Option<string>)

  predicate RegisterComplete(b: RegisterBody) {
    Provided(b.name) && Provided(b.email) && Provided(b.password) && Provided(b.passwordConfirm)
  }

  /** POST /auth/register. The two validation errors come before any lookup;
      then a taken email is a conflict; otherwise exactly one user is added. */
  function Register(b: RegisterBody, db: UserDb, now: Date, sign: UserId -> string): (r: Reply)
    ensures r.code in {201, 400, 409}
    ensures r.code == 400 <==> !RegisterComplete(b) || b.password != b.passwordConfirm
    ensures r.code != 201 ==> r.db == db
    ensures db.Valid() ==>
      (r.code == 409 <==> RegisterComplete(b) && b.password == b.passwordConfirm && EmailTaken(db, b.email.value))
    ensures r.code == 201 ==>
      && var id := Tables.FreshId(db);
      && r.body.Session? && r.body.token == sign(id)
      && r.db.rows.Keys == db.rows.Keys + {id}
      && r.db.rows[id].email == b.email.value
      && r.db.rows[id].password == b.password.value
      && r.db.rows[id] == User(id, b.name.value, b.email.value, b.password.value, None, None, now)
      && Public(r.db.rows[id]) == r.body.user
      && (db.Valid() ==> id !in db.rows && forall k :: k in db.rows ==> r.db.rows[k] == db.rows[k])
    ensures UsersValid(db) ==> UsersValid(r.db)
  {
    if !RegisterComplete(b) then Reply(400, Note("Please provide all required fields"), db)
    else if b.password != b.passwordConfirm then Reply(400, Note("Passwords do not match"), db)
    else if FindByEmail(db, b.email.value).Some? then Reply(409, Note("Email already in use"), db)
    else
      var id := Tables.FreshId(db);
      var u := User(id, b.name.value, b.email.value, b.password.value, None, None, now);
      Reply(201, Session(sign(id), Public(u)), Tables.Insert(db, u))
  }

  // -------------------------------------------------------------- login

  datatype LoginBody = LoginBody(email: Option<string>, password: Option<string>)

  /** POST /auth/login. An unknown email and a wrong password get the same
      401 reply; success needs both a user with that email and a matching
      password, and never changes the collection. */
  function Login(b: LoginBody, db: UserDb, compare: (string, string) -> bool, sign: UserId -> string): (r: Reply)
    ensures r.db == db
    ensures r.code in {200, 400, 401}
    ensures r.code == 400 <==> !Provided(b.email) || !Provided(b.password)
    ensures r.code == 401 ==> r == Reply(401, Note(InvalidCredentials), db)
    ensures r.code == 200 ==>
      exists k :: k in db.rows && db.rows[k].email == b.email.value
                  && compare(db.rows[k].password, b.password.value)
                  && r.body == Session(sign(db.rows[k].id), Public(db.rows[k]))
    ensures UsersValid(db) ==>
      (r.code == 200 <==>
        && Provided(b.email) && Provided(b.password)
        && exists k :: k in db.rows && db.rows[k].email == b.email.value
                       && compare(db.rows[k].password, b.password.value))
  {
    if !Provided(b.email) || !Provided(b.password) then
      Reply(400, Note("Please provide email and password"), db)
    else match FindByEmail(db, b.email.value)
      case None => Reply(401, Note(InvalidCredentials), db)
      case Some(u) =>
        if !compare(u.password, b.password.value) then Reply(401, Note(InvalidCredentials), db)
        else Reply(200, Session(sign(u.id), Public(u)), db)
  }

  // ------------------------------------------------------ current user

  /** GET /auth/verify, after the token has resolved to `caller`. */
  function VerifyToken(caller: UserId, db: UserDb): (r: Reply)
    ensures r.db == db
    ensures r.code == 404 <==> caller !in db.rows
    ensures r.code == 200 <==> caller in db.rows
    ensures r.code == 200 ==> r.body == Account(Public(db.rows[caller]))
  {
    if caller !in db.rows then Reply(404, Note(UserNotFound), db)
    else Reply(200, Account(Public(db.rows[caller])), db)
  }

  /** The body of PUT /auth/update-profile; None is an absent field. */
  datatype ProfileChanges = ProfileChanges(name: Option<string>, bio: Option<string>, avatar: Option<string>)

  /** PUT /auth/update-profile: name, bio and avatar as given, the time of
      the change, and nothing else. */
  function UpdateProfile(caller: UserId, c: ProfileChanges, db: UserDb, now: Date): (r: Reply)
    ensures r.code in {200, 404}
    ensures r.code == 404 <==> caller !in db.rows
    ensures r.code == 404 ==> r.db == db
    ensures r.code == 200 ==>
      && caller in db.rows && caller in r.db.rows
      && var before := db.rows[caller];
      && var after := r.db.rows[caller];
      && r.db.rows == db.rows[caller := after]
      && after == before.(name := after.name, bio := after.bio, avatar := after.avatar, updatedAt := now)
      && after.name == c.name.GetOr(before.name)
      && (c.bio.Some? ==> after.bio == c.bio) && (c.bio.None? ==> after.bio == before.bio)
      && (c.avatar.Some? ==> after.avatar == c.avatar) && (c.avatar.None? ==> after.avatar == before.avatar)
      && r.body == Account(Public(after))
    ensures UsersValid(db) ==> UsersValid(r.db)
  {
    if caller !in db.rows then Reply(404, Note(UserNotFound), db)
    else
      var u := db.rows[caller];
      var u' := u.(name := c.name.GetOr(u.name),
                   bio := if c.bio.Some? then c.bio else u.bio,
                   avatar := if c.avatar.Some? then c.avatar else u.avatar,
                   updatedAt := now);
      Reply(200, Account(Public(u')), Tables.Replace(db, caller, u'))
  }

  datatype PasswordChange = PasswordChange(currentPassword: Option<string>, newPassword: Option<string>,
                                           newPasswordConfirm: Option<string>)

  /** PUT /auth/change-password. Validation (400), then the user (404), then
      the current password (401); only a request that passes all three
      stores the new password, and it changes nothing else. */
  function ChangePassword(caller: UserId, c: PasswordChange, db: UserDb, compare: (string, string) -> bool): (r: Reply)
    ensures r.code in {200, 400, 401, 404}
    ensures var complete := Provided(c.currentPassword) && Provided(c.newPassword) && Provided(c.newPasswordConfirm);
      && (r.code == 400 <==> !complete || c.newPassword != c.newPasswordConfirm)
      && (r.code == 404 <==> complete && c.newPassword == c.newPasswordConfirm && caller !in db.rows)
      && (r.code == 401 <==> complete && c.newPassword == c.newPasswordConfirm && caller in db.rows
                             && !compare(db.rows[caller].password, c.currentPassword.value))
    ensures r.code != 200 ==> r.db == db
    ensures r.code == 200 ==>
      && caller in db.rows
      && r.db.rows == db.rows[caller := db.rows[caller].(password := c.newPassword.value)]
    ensures UsersValid(db) ==> UsersValid(r.db)
  {
    if !Provided(c.currentPassword) || !Provided(c.newPassword) || !Provided(c.newPasswordConfirm) then
      Reply(400, Note("Please provide all fields"), db)
    else if c.newPassword != c.newPasswordConfirm then Reply(400, Note("New passwords do not match"), db)
    else if caller !in db.rows then Reply(404, Note(UserNotFound), db)
    else if !compare(db.rows[caller].password, c.currentPassword.value) then
      Reply(401, Note("Current password is incorrect"), db)
    else
      var u := db.rows[caller].(password := c.newPassword.value);
      Reply(200, Note("Password changed successfully"), Tables.Replace(db, caller, u))
  }

  // ---------------------------------------------------------- properties

  /** Missing fields and mismatched passwords are refused without looking at
      the collection: any two collections give the same 400 reply body. */
  lemma RegisterValidatesFirst(b: RegisterBody, db1: UserDb, db2: UserDb, now: Date, sign: UserId -> string)
    requires !RegisterComplete(b) || b.password != b.passwordConfirm
    ensures Register(b, db1, now, sign).code == Register(b, db2, now, sign).code == 400
    ensures Register(b, db1, now, sign).body == Register(b, db2, now, sign).body
  {
  }

  /** Login does not reveal whether the email or the password was wrong. */
  lemma LoginFailuresIndistinguishable(unknown: LoginBody, wrong: LoginBody, db: UserDb,
                                       compare: (string, string) -> bool, sign: UserId -> string)
    requires UsersValid(db)
    requires Provided(unknown.email) && Provided(unknown.password) && !EmailTaken(db, unknown.email.value)
    requires Provided(wrong.email) && Provided(wrong.password)
    requires forall k :: k in db.rows && db.rows[k].email == wrong.email.value ==>
               !compare(db.rows[k].password, wrong.password.value)
    ensures Login(unknown, db, compare, sign) == Login(wrong, db, compare, sign)
    ensures Login(unknown, db, compare, sign) == Reply(401, Note(InvalidCredentials), db)
  {
  }

  /** A user who has just registered can log in with the same email and
      password, and gets a token for the new id. */
  lemma RegisterThenLogin(b: RegisterBody, db: UserDb, now: Date,
                          compare: (string, string) -> bool, sign: UserId -> string)
    requires UsersValid(db)
    requires Register(b, db, now, sign).code == 201
    requires compare(b.password.value, b.password.value)
    ensures var db' := Register(b, db, now, sign).db;
      var r := Login(LoginBody(b.email, b.password), db', compare, sign);
      r.code == 200 && r.body.token == sign(Tables.FreshId(db)) && r.db == db'
  {
    var id := Tables.FreshId(db);
    var db' := Register(b, db, now, sign).db;
    var r := Login(LoginBody(b.email, b.password), db', compare, sign);
    assert db'.rows[id].email == b.email.value && compare(db'.rows[id].password, b.password.value);
    var k :| k in db'.rows && db'.rows[k].email == b.email.value
             && compare(db'.rows[k].password, b.password.value)
             && r.body == Session(sign(db'.rows[k].id), Public(db'.rows[k]));
    assert k == id;
  }

  /** The token a login hands out names the user it was issued for: verifying
      it answers 200 with the same public profile. */
  lemma LoginThenVerify(b: LoginBody, db: UserDb, compare: (string, string) -> bool, sign: UserId -> string)
    requires UsersValid(db)
    requires Login(b, db, compare, sign).code == 200
    ensures var r := Login(b, db, compare, sign);
      && r.body.Session? && r.body.token == sign(r.body.user.id)
      && VerifyToken(r.body.user.id, db) == Reply(200, Account(r.body.user), db)
  {
    var r := Login(b, db, compare, sign);
    var k :| k in db.rows && db.rows[k].email == b.email.value
             && compare(db.rows[k].password, b.password.value)
             && r.body == Session(sign(db.rows[k].id), Public(db.rows[k]));
    assert r.body.user.id == k;
  }

  /** Right after registering, verifying the new token answers 200 with the
      profile the registration returned. */
  lemma RegisterThenVerify(b: RegisterBody, db: UserDb, now: Date, sign: UserId -> string)
    requires UsersValid(db)
    requires Register(b, db, now, sign).code == 201
    ensures var r := Register(b, db, now, sign);
      && r.body.token == sign(r.body.user.id)
      && VerifyToken(r.body.user.id, r.db) == Reply(200, Account(r.body.user), r.db)
  {
    var r := Register(b, db, now, sign);
    var id := Tables.FreshId(db);
    assert r.db.rows[id].id == id;
  }
}

=== FILE: auth_store.dfy ===
/** The client's session store and its mirror in local storage. The stored
    user is JSON text: `stringify` and `parse` stand for `JSON.stringify` and
    `JSON.parse`, the latter failing (None) on text it cannot read. */
module AuthStore {
  import opened Common
  import opened Remote
  import AuthController

  type Profile = AuthController.Profile

  /** Local storage: string keys to string values. */
  type Storage = map<string, string>

  const TokenKey := "token"
  const UserKey := "user"

  datatype State = State(user: Option<Profile>, token: Option<string>, isLoading: bool, isAuthenticated: bool)

  const Initial := State(None, None, false, false)

  /** The store and local storage together. */
  datatype Client = Client(state: State, storage: Storage)

  /** What register and login hand back: `{ token, user }`. */
  datatype Session = Session(token: string, user: Profile)

  /** The flag agrees with the token. */
  predicate Consistent(s: State) {
    s.isAuthenticated <==> s.token.Some?
  }

  /** A signed-in store is mirrored in local storage, so a reload finds the
      same token and the same user. */
  predicate Synced(c: Client, stringify: Profile -> string) {
    c.state.token.Some? ==>
      && TokenKey in c.storage && c.storage[TokenKey] == c.state.token.value
      && c.state.user.Some?
      && UserKey in c.storage && c.storage[UserKey] == stringify(c.state.user.value)
  }

  /** `localStorage.getItem(k)` tested for truthiness: present and non-empty. */
  predicate Stored(m: Storage, k: string) {
    k in m && m[k] != ""
  }

  /** `initAuth`: only when both keys hold non-empty text is anything done.
      The stored user is parsed before anything is set, so unreadable text
      leaves everything as it was. Then the token is verified: a confirmed
      session takes the server's user; a refused one is wiped from the store
      and from local storage. */
  function InitAuth(c: Client, parse: string -> Option<Profile>, stringify: Profile -> string,
                    verify: Reply<Profile>): (r: Client)
    ensures !Stored(c.storage, TokenKey) || !Stored(c.storage, UserKey) ==> r == c
    ensures Stored(c.storage, TokenKey) && Stored(c.storage, UserKey) && parse(c.storage[UserKey]).None? ==> r == c
    ensures Stored(c.storage, TokenKey) && Stored(c.storage, UserKey) && parse(c.storage[UserKey]).Some? ==>
      && r.state.isLoading == c.state.isLoading
      && (verify.Delivered? ==>
            && r.state == c.state.(token := Some(c.storage[TokenKey]), user := Some(verify.data), isAuthenticated := true)
            && r.storage == c.storage[UserKey := stringify(verify.data)])
      && (verify.Refused? ==>
            && r.state == c.state.(token := None, user := None, isAuthenticated := false)
            && r.storage == c.storage - {TokenKey, UserKey})
    ensures Consistent(c.state) ==> Consistent(r.state)
    ensures Synced(c, stringify) ==> Synced(r, stringify)
  {
    if !Stored(c.storage, TokenKey) || !Stored(c.storage, UserKey) then c
    else match parse(c.storage[UserKey])
      case None => c
      case Some(_) =>
        match verify
        case Delivered(u) =>
          Client(c.state.(token := Some(c.storage[TokenKey]), user := Some(u), isAuthenticated := true),
                 c.storage[UserKey := stringify(u)])
        case Refused(_) =>
          Client(c.state.(token := None, user := None, isAuthenticated := false),
                 c.storage - {TokenKey, UserKey})
  }

  /** `register` and `login` differ only in the endpoint they call and the
      text of their failure. */
  datatype SignInKind = Registering | LoggingIn

  function Fallback(e: SignInKind): string {
    match e
    case Registering => "Registration failed"
    case LoggingIn => "Login failed"
  }

  /** `register` / `login`: a delivered session is written to local storage
      and to the store; a refusal only clears the loading flag. */
  function SignIn(c: Client, stringify: Profile -> string, e: SignInKind, reply: Reply<Session>): (r: (Client, Outcome<()>))
    ensures !r.0.state.isLoading
    ensures reply.Delivered? ==>
      && r.0.state == State(Some(reply.data.user), Some(reply.data.token), false, true)
      && r.0.storage == c.storage[TokenKey := reply.data.token][UserKey := stringify(reply.data.user)]
      && r.1.Success?
    ensures reply.Refused? ==>
      && r.0 == Client(c.state.(isLoading := false), c.storage)
      && r.1 == Failure(ErrorText(reply.message, Fallback(e)))
    ensures Consistent(c.state) ==> Consistent(r.0.state)
    ensures Synced(c, stringify) ==> Synced(r.0, stringify)
  {
    match reply
    case Delivered(sess) =>
      (Client(State(Some(sess.user), Some(sess.token), false, true),
              c.storage[TokenKey := sess.token][UserKey := stringify(sess.user)]),
       Success(()))
    case Refused(m) => (Client(c.state.(isLoading := false), c.storage), Failure(ErrorText(m, Fallback(e))))
  }

  /** `logout`: both keys leave local storage and the session leaves the store. */
  function Logout(c: Client): (r: Client)
    ensures Consistent(r.state)
    ensures r.state == c.state.(user := None, token := None, isAuthenticated := false)
    ensures TokenKey !in r.storage && UserKey !in r.storage
    ensures forall k :: k in r.storage <==> k in c.storage && k != TokenKey && k != UserKey
    ensures forall k :: k in r.storage ==> r.storage[k] == c.storage[k]
  {
    Client(c.state.(user := None, token := None, isAuthenticated := false), c.storage - {TokenKey, UserKey})
  }

  /** `updateProfile`: the server's copy of the user replaces the stored one;
      the token is not touched. */
  function UpdateProfile(c: Client, stringify: Profile -> string, reply: Reply<Profile>): (r: (Client, Outcome<()>))
    ensures !r.0.state.isLoading
    ensures r.0.state.token == c.state.token && r.0.state.isAuthenticated == c.state.isAuthenticated
    ensures reply.Delivered? ==>
      && r.0.state.user == Some(reply.data)
      && r.0.storage == c.storage[UserKey := stringify(reply.data)]
      && r.1.Success?
    ensures reply.Refused? ==>
      && r.0 == Client(c.state.(isLoading := false), c.storage)
      && r.1 == Failure(ErrorText(reply.message, "Update failed"))
    ensures Consistent(c.state) ==> Consistent(r.0.state)
    ensures Synced(c, stringify) ==> Synced(r.0, stringify)
  {
    match reply
    case Delivered(u) =>
      (Client(c.state.(user := Some(u), isLoading := false), c.storage[UserKey := stringify(u)]), Success(()))
    case Refused(m) => (Client(c.state.(isLoading := false), c.storage), Failure(ErrorText(m, "Update failed")))
  }

  /** A fresh store starts signed out and consistent. */
  lemma InitialConsistent()
    ensures Consistent(Initial) && !Initial.isAuthenticated && Initial.user.None?
  {
  }

  /** Signing in and then reloading the page restores the session: the new
      store reads the same token from local storage and, once the server
      confirms it, holds the server's user. */
  lemma SessionSurvivesReload(c: Client, parse: string -> Option<Profile>, stringify: Profile -> string,
                              sess: Session, confirmed: Profile)
    requires sess.token != "" && stringify(sess.user) != ""
    requires parse(stringify(sess.user)) == Some(sess.user)
    ensures var signedIn := SignIn(c, stringify, LoggingIn, Delivered(sess)).0;
      var reloaded := InitAuth(Client(Initial, signedIn.storage), parse, stringify, Delivered(confirmed));
      && reloaded.state.isAuthenticated
      && reloaded.state.token == Some(sess.token)
      && reloaded.state.user == Some(confirmed)
  {
    var signedIn := SignIn(c, stringify, LoggingIn, Delivered(sess)).0;
    assert signedIn.storage[TokenKey] == sess.token;
    assert signedIn.storage[UserKey] == stringify(sess.user);
  }

  /** After logging out, a reload finds nothing to restore. */
  lemma LogoutSurvivesReload(c: Client, parse: string -> Option<Profile>, stringify: Profile -> string,
                             verify: Reply<Profile>)
    ensures var out := Logout(c);
      InitAuth(Client(Initial, out.storage), parse, stringify, verify).state == Initial
  {
  }

  /** A refused verification signs the store out however it started. */
  lemma RefusedVerificationSignsOut(c: Client, parse: string -> Option<Profile>, stringify: Profile -> string,
                                    message: Option<string>)
    requires Stored(c.storage, TokenKey) && Stored(c.storage, UserKey) && parse(c.storage[UserKey]).Some?
    ensures var r := InitAuth(c, parse, stringify, Refused(message));
      !r.state.isAuthenticated && r.state.token.None? && r.state.user.None?
      && !Stored(r.storage, TokenKey) && !Stored(r.storage, UserKey)
  {
  }
}

=== FILE: common.dfy ===
/** Values shared by every part of the model: optional values and the
    JavaScript notion of a "provided" string field. */
module Common {

  /** A value that may be absent (`undefined` or `null` in the source). */
  datatype Option<+T> = None | Some(value: T) {

    /** The carried value, or `default` when there is none. */
    function GetOr(default: T): T {
      match this
      case Some(v) => v
      case None => default
    }
  }

  /** No element occurs twice. */
  predicate Distinct<T(==)>(s: seq<T>) {
    forall i, j :: 0 <= i < j < |s| ==> s[i] != s[j]
  }

  /** JavaScript truthiness of an optional string: it is present and not "". */
  predicate Provided(s: Option<string>) {
    s.Some? && s.value != ""
  }
}

=== FILE: remote.dfy ===
/** How the client stores see a call to the API: it either delivers the
    response data or is refused, possibly with the server's message. */
module Remote {
  import opened Common

  datatype Reply<T> = Delivered(data: T) | Refused(message: Option<string>)

  /** What an action hands back to its caller: `{ success: true, ... }` or
      `{ success: false, error }`. */
  datatype Outcome<T> = Success(value: T) | Failure(error: string)

  /** `error.response?.data?.message || fallback`: the server's message when
      it sent a non-empty one, the action's own text otherwise. */
  function ErrorText(message: Option<string>, fallback: string): (e: string)
    ensures Provided(message) ==> e == message.value
    ensures !Provided(message) ==> e == fallback
  {
    if Provided(message) then message.value else fallback
  }
}

=== FILE: sorting.dfy ===
/** The ordering a sorted query returns: ascending on a composite key,
    equal keys keeping their scan order (a stable insertion sort). */
module Sorting {
  import opened Common

  /** A composite sort key, compared field by field. */
  datatype Key = Key(first: int, second: int, third: int)

  predicate KeyLe(x: Key, y: Key) {
    || x.first < y.first
    || (x.first == y.first && x.second < y.second)
    || (x.first == y.first && x.second == y.second && x.third <= y.third)
  }

  lemma KeyLeTotal(x: Key, y: Key)
    ensures KeyLe(x, y) || KeyLe(y, x)
  {
  }

  lemma KeyLeTransitive(x: Key, y: Key, z: Key)
    requires KeyLe(x, y) && KeyLe(y, z)
    ensures KeyLe(x, z)
  {
  }

  /** Every earlier element has a key no greater than every later one. */
  ghost predicate SortedBy<T>(s: seq<T>, key: T -> Key) {
    forall i, j :: 0 <= i < j < |s| ==> KeyLe(key(s[i]), key(s[j]))
  }

  /** Places `x` before the first element whose key is not smaller, so equal
      keys keep `x` in front of the elements that followed it. */
  function InsertBy<T>(x: T, s: seq<T>, key: T -> Key): (r: seq<T>)
    requires SortedBy(s, key)
    ensures SortedBy(r, key)
    ensures multiset(r) == multiset(s) + multiset{x}
  {
    if |s| == 0 then [x]
    else if KeyLe(key(x), key(s[0])) then
      assert forall j :: 0 < j < |s| ==> KeyLe(key(x), key(s[j])) by {
        forall j | 0 < j < |s| {
          KeyLeTransitive(key(x), key(s[0]), key(s[j]));
        }
      }
      [x] + s
    else
      var rest := InsertBy(x, s[1..], key);
      KeyLeTotal(key(x), key(s[0]));
      assert forall j :: 0 <= j < |rest| ==> KeyLe(key(s[0]), key(rest[j])) by {
        forall j | 0 <= j < |rest|
          ensures KeyLe(key(s[0]), key(rest[j]))
        {
          assert rest[j] in multiset(rest);
          assert rest[j] == x || rest[j] in multiset(s[1..]);
          if rest[j] != x {
            var m :| 0 <= m < |s[1..]| && s[1..][m] == rest[j];
            assert s[m + 1] == rest[j];
          }
        }
      }
      assert s == [s[0]] + s[1..];
      [s[0]] + rest
  }

  /** A stable sort of `s` by `key`. */
  function SortBy<T>(s: seq<T>, key: T -> Key): (r: seq<T>)
    ensures SortedBy(r, key)
    ensures multiset(r) == multiset(s)
  {
    if |s| == 0 then []
    else
      assert s == [s[0]] + s[1..];
      InsertBy(s[0], SortBy(s[1..], key), key)
  }

  /** Sorting neither adds nor drops an element. */
  lemma SortKeepsElements<T>(s: seq<T>, key: T -> Key, x: T)
    ensures x in SortBy(s, key) <==> x in s
  {
    assert x in SortBy(s, key) <==> x in multiset(SortBy(s, key));
    assert x in s <==> x in multiset(s);
  }

  /** In a list without repeats every element occurs at most once. */
  lemma {:induction false} DistinctOnce<T>(s: seq<T>, x: T)
    requires Distinct(s)
    ensures multiset(s)[x] <= 1
  {
    if |s| > 0 {
      assert s == [s[0]] + s[1..];
      assert Distinct(s[1..]) by {
        forall i, j | 0 <= i < j < |s[1..]| ensures s[1..][i] != s[1..][j] {
          assert s[1..][i] == s[i + 1] && s[1..][j] == s[j + 1];
        }
      }
      DistinctOnce(s[1..], x);
      if x == s[0] {
        assert x !in s[1..];
      }
    }
  }

  /** Reordering a list without repeats cannot make one, so sorting keeps a
      list free of repeats. */
  lemma PermutationDistinct<T>(a: seq<T>, b: seq<T>)
    requires multiset(a) == multiset(b) && Distinct(a)
    ensures Distinct(b)
  {
    forall i, j | 0 <= i < j < |b| ensures b[i] != b[j] {
      if b[i] == b[j] {
        var x := b[i];
        assert b == b[..j] + b[j..];
        assert x in b[..j] && x in b[j..];
        assert multiset(b)[x] == multiset(b[..j])[x] + multiset(b[j..])[x];
        DistinctOnce(a, x);
        assert false;
      }
    }
  }
}

=== FILE: strings.dfy ===
/** String operations the application relies on: `trim()`, `split(',')`,
    `join(',')` and the byte-wise ordering a database uses to sort labels. */
module Strings {

  /** The characters `trim()` removes. JavaScript's white-space class is
      larger; this model fixes a small set of it. */
  predicate IsSpace(c: char) {
    c == ' ' || c == '\t' || c == '\n' || c == '\r'
  }

  /** No white space at either end. */
  predicate IsTrimmed(s: string) {
    |s| == 0 || (!IsSpace(s[0]) && !IsSpace(s[|s| - 1]))
  }

  /** All characters of `s` are white space. */
  predicate AllSpace(s: string) {
    forall i :: 0 <= i < |s| ==> IsSpace(s[i])
  }

  /** Drops leading white space. */
  function TrimStart(s: string): (r: string)
    ensures |r| <= |s|
    ensures |r| == 0 || !IsSpace(r[0])
  {
    if |s| > 0 && IsSpace(s[0]) then TrimStart(s[1..]) else s
  }

  /** Drops trailing white space. */
  function TrimEnd(s: string): (r: string)
    ensures |r| <= |s|
    ensures |r| == 0 || (r[0] == s[0] && !IsSpace(r[|r| - 1]))
  {
    if |s| > 0 && IsSpace(s[|s| - 1]) then TrimEnd(s[..|s| - 1]) else s
  }

  /** `s.trim()`: white space removed at both ends. */
  function Trim(s: string): (r: string)
    ensures IsTrimmed(r) && |r| <= |s|
  {
    TrimEnd(TrimStart(s))
  }

  /** What `trimStart()` leaves is the suffix after the leading white space. */
  lemma {:induction false} TrimStartIsSuffix(s: string)
    ensures var r := TrimStart(s); r == s[|s| - |r|..] && AllSpace(s[..|s| - |r|])
  {
    if |s| > 0 && IsSpace(s[0]) {
      TrimStartIsSuffix(s[1..]);
      var r := TrimStart(s[1..]);
      var lead := s[..|s| - |r|];
      forall k | 0 <= k < |lead| ensures IsSpace(lead[k]) {
        if k > 0 {
          assert lead[k] == s[1..][..|s| - 1 - |r|][k - 1];
        }
      }
    }
  }

  /** What `trimEnd()` leaves is the prefix before the trailing white space. */
  lemma {:induction false} TrimEndIsPrefix(s: string)
    ensures var r := TrimEnd(s); r == s[..|r|] && AllSpace(s[|r|..])
  {
    if |s| > 0 && IsSpace(s[|s| - 1]) {
      var p := s[..|s| - 1];
      TrimEndIsPrefix(p);
      var r := TrimEnd(p);
      assert r == s[..|r|] by {
        assert p[..|r|] == s[..|r|];
      }
      forall k | 0 <= k < |s| - |r| ensures IsSpace(s[|r|..][k]) {
        if k < |s| - 1 - |r| {
          assert s[|r|..][k] == p[|r|..][k];
        }
      }
    }
  }

  /** What `trim()` leaves is the contiguous run of `s` that starts where its
      leading white space ends; everything before and after that run is
      white space. */
  lemma TrimIsSlice(s: string)
    ensures var i, r := |s| - |TrimStart(s)|, Trim(s);
      && i + |r| <= |s|
      && (forall k :: 0 <= k < |r| ==> r[k] == s[i + k])
      && (forall k :: 0 <= k < i ==> IsSpace(s[k]))
      && (forall k :: i + |r| <= k < |s| ==> IsSpace(s[k]))
  {
    var a := TrimStart(s);
    var r := TrimEnd(a);
    TrimStartIsSuffix(s);
    TrimEndIsPrefix(a);
    RunBetweenSpaces(s, a, r);
  }

  /** A prefix `r` of a suffix `a` of `s`, with white space before `a` and
      after `r`, is a run of `s` framed by white space. */
  lemma RunBetweenSpaces(s: string, a: string, r: string)
    requires |a| <= |s| && a == s[|s| - |a|..] && AllSpace(s[..|s| - |a|])
    requires |r| <= |a| && r == a[..|r|] && AllSpace(a[|r|..])
    ensures var i := |s| - |a|;
      && i + |r| <= |s|
      && (forall k :: 0 <= k < |r| ==> r[k] == s[i + k])
      && (forall k :: 0 <= k < i ==> IsSpace(s[k]))
      && (forall k :: i + |r| <= k < |s| ==> IsSpace(s[k]))
  {
  }

  /** Trimming an already trimmed string changes nothing. */
  lemma TrimTrimmed(s: string)
    requires IsTrimmed(s)
    ensures Trim(s) == s
  {
  }

  /** Trimming never introduces a character. */
  lemma TrimKeepsCharacters(s: string, c: char)
    requires c !in s
    ensures c !in Trim(s)
  {
    TrimIsSlice(s);
    var i := |s| - |TrimStart(s)|;
    forall k | 0 <= k < |Trim(s)| ensures Trim(s)[k] != c {
      assert Trim(s)[k] == s[i + k];
    }
  }

  /** The UTF-16 code units a character takes: two (a surrogate pair) above
      U+FFFF, one otherwise. */
  function CodeUnits(c: char): nat {
    if c as int > 0xFFFF then 2 else 1
  }

  /** Every character lies in the Basic Multilingual Plane. */
  predicate InBasicPlane(s: string) {
    forall i :: 0 <= i < |s| ==> s[i] as int <= 0xFFFF
  }

  /** JavaScript's `s.length`: UTF-16 code units, not characters. */
  function JsLength(s: string): (n: nat)
    ensures |s| <= n <= 2 * |s|
  {
    if |s| == 0 then 0 else CodeUnits(s[0]) + JsLength(s[1..])
  }

  /** `.length` agrees with the character count exactly when no character
      needs a surrogate pair, and is twice it exactly when every one does. */
  lemma {:induction false} JsLengthCountsPairs(s: string)
    ensures JsLength(s) == |s| <==> InBasicPlane(s)
    ensures JsLength(s) == 2 * |s| <==> forall i :: 0 <= i < |s| ==> s[i] as int > 0xFFFF
  {
    if |s| > 0 {
      JsLengthCountsPairs(s[1..]);
      assert forall i :: 0 <= i < |s| - 1 ==> s[1..][i] == s[i + 1];
    }
  }

  /** `.length` is additive: a character adds its own code units, and a
      concatenation the lengths of both parts. Together these fix the
      value on every string. */
  lemma {:induction false} JsLengthAppend(a: string, b: string)
    ensures JsLength(a + b) == JsLength(a) + JsLength(b)
    ensures |a| == 1 ==> JsLength(a) == CodeUnits(a[0])
  {
    if |a| == 0 {
      assert a + b == b;
    } else {
      assert (a + b)[0] == a[0] && (a + b)[1..] == a[1..] + b;
      JsLengthAppend(a[1..], b);
    }
  }

  /** Number of occurrences of `c` in `s`. */
  function Occurrences(s: string, c: char): nat {
    if |s| == 0 then 0
    else (if s[0] == c then 1 else 0) + Occurrences(s[1..], c)
  }

  /** `s.split(sep)` for a one-character separator: the maximal segments
      between separators, empty ones included, and [""] for "". */
  function Split(s: string, sep: char): (r: seq<string>)
    ensures |r| == Occurrences(s, sep) + 1
    ensures forall i :: 0 <= i < |r| ==> sep !in r[i]
  {
    if |s| == 0 then [""]
    else
      var rest := Split(s[1..], sep);
      if s[0] == sep then [""] + rest
      else [[s[0]] + rest[0]] + rest[1..]
  }

  /** `parts.join(sep)`. */
  function Join(parts: seq<string>, sep: char): string {
    if |parts| == 0 then ""
    else if |parts| == 1 then parts[0]
    else parts[0] + [sep] + Join(parts[1..], sep)
  }

  /** A segment without separator splits to itself. */
  lemma {:induction false} SplitNoSeparator(a: string, sep: char)
    requires sep !in a
    ensures Split(a, sep) == [a]
  {
    if |a| > 0 {
      assert a[0] != sep;
      SplitNoSeparator(a[1..], sep);
      assert [a[0]] + a[1..] == a;
    }
  }

  /** Splitting at the first separator. */
  lemma {:induction false} SplitAtSeparator(a: string, b: string, sep: char)
    requires sep !in a
    ensures Split(a + [sep] + b, sep) == [a] + Split(b, sep)
  {
    if |a| == 0 {
      assert (a + [sep] + b)[1..] == b;
    } else {
      assert (a + [sep] + b)[1..] == a[1..] + [sep] + b;
      SplitAtSeparator(a[1..], b, sep);
      assert [a[0]] + a[1..] == a;
    }
  }

  /** Splitting undoes joining, for any non-empty list of separator-free parts. */
  lemma {:induction false} SplitJoin(parts: seq<string>, sep: char)
    requires |parts| >= 1
    requires forall i :: 0 <= i < |parts| ==> sep !in parts[i]
    ensures Split(Join(parts, sep), sep) == parts
  {
    if |parts| == 1 {
      SplitNoSeparator(parts[0], sep);
    } else {
      SplitJoin(parts[1..], sep);
      SplitAtSeparator(parts[0], Join(parts[1..], sep), sep);
    }
  }

  /** Strict lexicographic order on character codes, the order a database
      applies to string fields under its default binary collation. */
  predicate StrLess(a: string, b: string) {
    if |a| == 0 then |b| > 0
    else if |b| == 0 then false
    else if a[0] == b[0] then StrLess(a[1..], b[1..])
    else a[0] < b[0]
  }
}

=== FILE: tables.dfy ===
/** A document collection: rows keyed by an id the collection allocates
    itself, in increasing order, and never reuses. */
module Tables {
  import opened Common

  datatype Table<T> = Table(rows: map<nat, T>, next: nat) {

    /** Every stored id was allocated, so `next` is fresh. */
    predicate Valid() {
      forall k :: k in rows ==> k < next
    }
  }

  /** The id the next insertion receives. */
  function FreshId<T>(t: Table<T>): (id: nat)
    ensures t.Valid() ==> id !in t.rows
  {
    t.next
  }

  /** Stores `v` under `FreshId(t)`; every existing row is kept as it was. */
  function Insert<T>(t: Table<T>, v: T): (r: Table<T>)
    ensures t.Valid() ==> r.Valid()
    ensures r.rows.Keys == t.rows.Keys + {FreshId(t)}
    ensures r.rows[FreshId(t)] == v
    ensures t.Valid() ==> forall k :: k in t.rows ==> r.rows[k] == t.rows[k]
  {
    Table(t.rows[t.next := v], t.next + 1)
  }

  /** Overwrites the row `k`; every other row is kept as it was. */
  function Replace<T>(t: Table<T>, k: nat, v: T): (r: Table<T>)
    requires k in t.rows
    ensures t.Valid() ==> r.Valid()
    ensures r.rows.Keys == t.rows.Keys && r.rows[k] == v
    ensures forall j :: j in t.rows && j != k ==> r.rows[j] == t.rows[j]
  {
    Table(t.rows[k := v], t.next)
  }

  /** Deletes the row `k`; every other row is kept as it was. */
  function Remove<T>(t: Table<T>, k: nat): (r: Table<T>)
    ensures t.Valid() ==> r.Valid()
    ensures r.rows.Keys == t.rows.Keys - {k}
    ensures forall j :: j in r.rows ==> r.rows[j] == t.rows[j]
  {
    Table(t.rows - {k}, t.next)
  }

  /** The rows whose id is below `n`, in id order. */
  function ScanBelow<T(==)>(rows: map<nat, T>, n: nat): (s: seq<T>)
    ensures forall i :: 0 <= i < |s| ==> s[i] in rows.Values
    ensures forall k :: k in rows && k < n ==> rows[k] in s
  {
    if n == 0 then []
    else ScanBelow(rows, n - 1) + (if n - 1 in rows then [rows[n - 1]] else [])
  }

  /** All rows in id order, i.e. in the order they were inserted: the order a
      collection scan returns them in. */
  function Scan<T(==)>(t: Table<T>): (s: seq<T>)
    ensures forall i :: 0 <= i < |s| ==> s[i] in t.rows.Values
    ensures t.Valid() ==> forall k :: k in t.rows ==> t.rows[k] in s
  {
    ScanBelow(t.rows, t.next)
  }

  /** No two ids hold the same record. */
  predicate Injective<T(==)>(rows: map<nat, T>) {
    forall j, k :: j in rows && k in rows && rows[j] == rows[k] ==> j == k
  }

  /** Whatever a scan below `n` meets is stored under some id below `n`. */
  lemma {:induction false} ScanBelowFrom<T>(rows: map<nat, T>, n: nat, x: T)
    requires x in ScanBelow(rows, n)
    ensures exists k :: k in rows && k < n && rows[k] == x
  {
    if x in ScanBelow(rows, n - 1) {
      ScanBelowFrom(rows, n - 1, x);
    }
  }

  lemma {:induction false} ScanBelowDistinct<T>(rows: map<nat, T>, n: nat)
    requires Injective(rows)
    ensures Distinct(ScanBelow(rows, n))
  {
    if n > 0 {
      ScanBelowDistinct(rows, n - 1);
      var s := ScanBelow(rows, n - 1);
      if n - 1 in rows {
        assert rows[n - 1] !in s by {
          if rows[n - 1] in s {
            ScanBelowFrom(rows, n - 1, rows[n - 1]);
            assert false;
          }
        }
      }
    }
  }

  /** When no two ids hold the same record, a scan meets each record once. */
  lemma ScanDistinct<T>(t: Table<T>)
    requires Injective(t.rows)
    ensures Distinct(Scan(t))
  {
    ScanBelowDistinct(t.rows, t.next);
  }
}

=== FILE: task_controller.dfy ===
/** The task API handlers. Each handler is a pure function from the caller's
    id, the request and the task collection to the reply: HTTP status, body
    and the collection afterwards. */
module TaskController {
  import opened Common
  import opened TaskModel
  import Strings
  import Tables
  import Sorting

  type TaskDb = Tables.Table<Task>

  /** What the collection guarantees: ids come from its allocator, each task
      is stored under its own id, and every task passed the schema. */
  predicate StoreValid(db: TaskDb) {
    && db.Valid()
    && forall k :: k in db.rows ==> db.rows[k].id == k && ValidTask(db.rows[k])
  }

  /** One row of an aggregation: a category and how many tasks fall in it. */
  datatype Group = Group(id: string, count: nat)

  datatype Body =
    | Tasks(count: nat, items: seq<Task>)
    | One(task: Task)
    | Note(message: string)
    | Invalid
    | Summary(byStatus: seq<Group>, byPriority: seq<Group>)

  datatype Reply = Reply(code: int, body: Body, db: TaskDb)

  const NotFound := "Task not found"
  const TitleMissing := "Please provide a title"
  const Deleted := "Task deleted successfully"

  // ---------------------------------------------------------------- list

  /** The query string of a list request; None is an absent parameter. */
  datatype Query = Query(status: Option<string>, priority: Option<string>,
                         search: Option<string>, sort: Option<string>)

  datatype SortOrder = Newest | ByDueDate | ByPriority

  /** The `sort` parameter picks the order: only the two exact strings
      select a non-default one. */
  function SelectOrder(sort: Option<string>): (r: SortOrder)
    ensures r == ByDueDate <==> sort == Some("due-date")
    ensures r == ByPriority <==> sort == Some("priority")
    ensures r == Newest <==> sort != Some("due-date") && sort != Some("priority")
  {
    if sort == Some("due-date") then ByDueDate
    else if sort == Some("priority") then ByPriority
    else Newest
  }

  /** Where the priority label falls in string order: "high" < "low" < "medium". */
  function PriorityRank(p: Priority): int {
    match p
    case High => 0
    case Low => 1
    case Medium => 2
  }

  /** Dated tasks sort between the two places an undated one may take. */
  function DueRank(due: Option<Date>, nullsFirst: bool): int {
    if due.Some? then 0 else if nullsFirst then -1 else 1
  }

  /** The sort key for `order`; `createdAt` descending breaks every tie. The
      database decides where a null due date goes, given by `nullsFirst`. */
  function SortKey(order: SortOrder, nullsFirst: bool): (key: Task -> Sorting.Key)
    ensures order == Newest ==> forall a, b ::
      Sorting.KeyLe(key(a), key(b)) <==> a.createdAt >= b.createdAt
    ensures order == ByDueDate ==> forall a, b ::
      Sorting.KeyLe(key(a), key(b)) <==>
        || (a.dueDate.Some? && b.dueDate.Some? && a.dueDate.value < b.dueDate.value)
        || (a.dueDate == b.dueDate && a.createdAt >= b.createdAt)
        || (a.dueDate.Some? != b.dueDate.Some? && (a.dueDate.None? <==> nullsFirst))
    ensures order == ByPriority ==> forall a, b ::
      Sorting.KeyLe(key(a), key(b)) <==>
        || PriorityRank(a.priority) < PriorityRank(b.priority)
        || (a.priority == b.priority && a.createdAt >= b.createdAt)
  {
    (t: Task) =>
      match order
      case Newest => Sorting.Key(0, 0, -t.createdAt)
      case ByDueDate => Sorting.Key(DueRank(t.dueDate, nullsFirst), t.dueDate.GetOr(0), -t.createdAt)
      case ByPriority => Sorting.Key(PriorityRank(t.priority), 0, -t.createdAt)
  }

  /** The filter document: the caller's tasks, narrowed by every parameter
      that is given and not empty. `matches(pattern, text)` is the
      case-insensitive regular-expression match the database performs. */
  predicate Selected(t: Task, caller: UserId, q: Query, matches: (string, string) -> bool) {
    && t.owner == caller
    && (Provided(q.status) ==> StatusLabel(t.status) == q.status.value)
    && (Provided(q.priority) ==> PriorityLabel(t.priority) == q.priority.value)
    && (Provided(q.search) ==> matches(q.search.value, t.title) || matches(q.search.value, t.description))
  }

  function SelectAll(s: seq<Task>, caller: UserId, q: Query, matches: (string, string) -> bool): (r: seq<Task>)
    ensures forall t :: t in r <==> t in s && Selected(t, caller, q, matches)
    ensures Distinct(s) ==> Distinct(r)
  {
    if |s| == 0 then []
    else
      var rest := SelectAll(s[1..], caller, q, matches);
      assert forall i :: 0 < i < |s| ==> s[i] == s[1..][i - 1];
      assert Distinct(s) ==> Distinct(s[1..]) && s[0] !in rest;
      if Selected(s[0], caller, q, matches) then [s[0]] + rest else rest
  }

  /** GET /tasks. The reply lists exactly the stored tasks the filter selects,
      ordered by the key the `sort` parameter picks. */
  function ListTasks(caller: UserId, q: Query, db: TaskDb,
                     matches: (string, string) -> bool, nullsFirst: bool): (r: Reply)
    ensures r.code == 200 && r.body.Tasks? && r.db == db
    ensures r.body.count == |r.body.items|
    ensures forall i :: 0 <= i < |r.body.items| ==>
      r.body.items[i] in db.rows.Values && Selected(r.body.items[i], caller, q, matches)
    ensures db.Valid() ==> forall k :: k in db.rows && Selected(db.rows[k], caller, q, matches) ==>
      db.rows[k] in r.body.items
    ensures Sorting.SortedBy(r.body.items, SortKey(SelectOrder(q.sort), nullsFirst))
    ensures StoreValid(db) ==> Distinct(r.body.items)
  {
    var all := Tables.Scan(db);
    var selected := SelectAll(all, caller, q, matches);
    var key := SortKey(SelectOrder(q.sort), nullsFirst);
    var sorted := Sorting.SortBy(selected, key);
    assert forall t :: t in sorted <==> t in selected by {
      forall t { Sorting.SortKeepsElements(selected, key, t); }
    }
    assert forall t :: t in all ==> t in db.rows.Values;
    assert StoreValid(db) ==> Distinct(sorted) by {
      if StoreValid(db) {
        Tables.ScanDistinct(db);
        Sorting.PermutationDistinct(selected, sorted);
      }
    }
    Reply(200, Tasks(|sorted|, sorted), db)
  }

  // ------------------------------------------------------- single task

  /** GET /tasks/:id. Existence is checked before ownership. */
  function GetTask(caller: UserId, id: TaskId, db: TaskDb): (r: Reply)
    ensures r.db == db
    ensures r.code == 404 <==> id !in db.rows
    ensures r.code == 403 <==> id in db.rows && db.rows[id].owner != caller
    ensures r.code == 200 <==> id in db.rows && db.rows[id].owner == caller
    ensures r.code == 200 ==> r.body == One(db.rows[id])
    ensures r.code != 200 ==> r.body.Note?
  {
    if id !in db.rows then Reply(404, Note(NotFound), db)
    else if db.rows[id].owner != caller then Reply(403, Note("Not authorized to access this task"), db)
    else Reply(200, One(db.rows[id]), db)
  }

  /** The body of POST /tasks; None is an absent field. */
  datatype NewTaskBody = NewTaskBody(title: Option<string>, description: Option<string>,
                                     dueDate: Option<Date>, priority: Option<string>,
                                     tags: Option<seq<string>>)

  /** POST /tasks. A missing or empty title is refused before the schema
      sees the request; a schema violation stores nothing. */
  function CreateTask(caller: UserId, b: NewTaskBody, db: TaskDb, now: Date): (r: Reply)
    ensures r.code == 400 <==> !Provided(b.title)
    ensures r.code in {201, 400, 500}
    ensures r.code == 201 <==>
      && Provided(b.title)
      && TitleMin <= Strings.JsLength(Strings.Trim(b.title.value)) <= TitleMax
      && ValidDescription(b.description.GetOr(""))
      && (b.priority.None? || ParsePriority(b.priority.value).Some?)
    ensures r.code != 201 ==> r.db == db
    ensures r.code == 201 ==>
      && r.body.One?
      && var t := r.body.task;
      && t.owner == caller && t.status == Pending
      && t.title == Strings.Trim(b.title.value)
      && t.description == b.description.GetOr("")
      && t.dueDate == b.dueDate
      && t.tags == b.tags.GetOr([])
      && (b.priority.None? ==> t.priority == Medium)
      && (b.priority.Some? ==> PriorityLabel(t.priority) == b.priority.value)
      && t.createdAt == now && t.updatedAt == now
      && r.db.rows.Keys == db.rows.Keys + {t.id}
      && r.db.rows[t.id] == t
      && (db.Valid() ==> t.id !in db.rows && forall k :: k in db.rows ==> r.db.rows[k] == db.rows[k])
    ensures StoreValid(db) ==> StoreValid(r.db)
  {
    if !Provided(b.title) then Reply(400, Note(TitleMissing), db)
    else
      var id := Tables.FreshId(db);
      var draft := Draft(b.title.value, b.description, b.priority, b.dueDate, b.tags.GetOr([]));
      match NewTask(draft, id, caller, now)
      case None => Reply(500, Invalid, db)
      case Some(t) => Reply(201, One(t), Tables.Insert(db, t))
  }

  /** PUT /tasks/:id. After the existence and ownership checks only the
      editable fields of the one task change. */
  function UpdateTask(caller: UserId, id: TaskId, c: Changes, db: TaskDb, now: Date): (r: Reply)
    ensures r.code == 404 <==> id !in db.rows
    ensures r.code == 403 <==> id in db.rows && db.rows[id].owner != caller
    ensures r.code in {200, 403, 404, 500}
    ensures r.code == 200 <==>
      && id in db.rows && db.rows[id].owner == caller
      && (c.title.None? || TitleMin <= Strings.JsLength(Strings.Trim(c.title.value)) <= TitleMax)
      && (c.description.None? || ValidDescription(c.description.value))
      && (c.status.None? || ParseStatus(c.status.value).Some?)
      && (c.priority.None? || ParsePriority(c.priority.value).Some?)
    ensures r.code != 200 ==> r.db == db
    ensures r.code == 200 ==>
      && id in db.rows && r.body.One?
      && r.db.rows == db.rows[id := r.body.task]
      && OnlyEditableChanged(db.rows[id], r.body.task)
      && r.body.task.id == db.rows[id].id && r.body.task.owner == caller
      && r.body.task.updatedAt == now
      && var before, t := db.rows[id], r.body.task;
      && t.title == (if c.title.Some? then Strings.Trim(c.title.value) else before.title)
      && t.description == c.description.GetOr(before.description)
      && (if c.status.Some? then StatusLabel(t.status) == c.status.value else t.status == before.status)
      && (if c.priority.Some? then PriorityLabel(t.priority) == c.priority.value else t.priority == before.priority)
      && t.dueDate == c.dueDate.GetOr(before.dueDate)
      && t.tags == c.tags.GetOr(before.tags)
    ensures StoreValid(db) ==> StoreValid(r.db)
  {
    if id !in db.rows then Reply(404, Note(NotFound), db)
    else if db.rows[id].owner != caller then Reply(403, Note("Not authorized to update this task"), db)
    else match ApplyChanges(db.rows[id], c, now)
      case None => Reply(500, Invalid, db)
      case Some(t) => Reply(200, One(t), Tables.Replace(db, id, t))
  }

  /** DELETE /tasks/:id. */
  function DeleteTask(caller: UserId, id: TaskId, db: TaskDb): (r: Reply)
    ensures r.code == 404 <==> id !in db.rows
    ensures r.code == 403 <==> id in db.rows && db.rows[id].owner != caller
    ensures r.code in {200, 403, 404}
    ensures r.code != 200 ==> r.db == db
    ensures r.code == 200 ==>
      && r.db.rows.Keys == db.rows.Keys - {id}
      && forall k :: k in r.db.rows ==> r.db.rows[k] == db.rows[k]
    ensures StoreValid(db) ==> StoreValid(r.db)
  {
    if id !in db.rows then Reply(404, Note(NotFound), db)
    else if db.rows[id].owner != caller then Reply(403, Note("Not authorized to delete this task"), db)
    else Reply(200, Note(Deleted), Tables.Remove(db, id))
  }

  // ---------------------------------------------------------- statistics

  /** The ids of the caller's tasks. */
  function OwnedIds(db: TaskDb, caller: UserId): set<TaskId> {
    set k | k in db.rows && db.rows[k].owner == caller
  }

  function StatusIds(db: TaskDb, caller: UserId, s: Status): set<TaskId> {
    set k | k in db.rows && db.rows[k].owner == caller && db.rows[k].status == s
  }

  function PriorityIds(db: TaskDb, caller: UserId, p: Priority): set<TaskId> {
    set k | k in db.rows && db.rows[k].owner == caller && db.rows[k].priority == p
  }

  function Total(gs: seq<Group>): nat {
    if |gs| == 0 then 0 else gs[0].count + Total(gs[1..])
  }

  lemma TotalOfThree(x: Group, y: Group, z: Group)
    ensures Total([x, y, z]) == x.count + y.count + z.count
  {
    assert [x, y, z][1..] == [y, z];
    assert [y, z][1..] == [z];
    assert Total([z]) == z.count + Total([]);
    assert Total([y, z]) == y.count + Total([z]);
  }

  /** No two groups share a category. */
  predicate DistinctIds(gs: seq<Group>) {
    forall i, j :: 0 <= i < j < |gs| ==> gs[i].id != gs[j].id
  }

  /** The groups with at least one member; a `$group` stage emits no others. */
  function NonEmpty(gs: seq<Group>): (r: seq<Group>)
    ensures forall g :: g in r <==> g in gs && g.count > 0
    ensures Total(r) == Total(gs)
    ensures DistinctIds(gs) ==> DistinctIds(r)
  {
    if |gs| == 0 then []
    else if gs[0].count > 0 then [gs[0]] + NonEmpty(gs[1..])
    else NonEmpty(gs[1..])
  }

  /** One group per status, empty ones included, in declaration order. */
  function StatusCounts(db: TaskDb, caller: UserId): seq<Group> {
    [Group(StatusLabel(Pending), |StatusIds(db, caller, Pending)|),
     Group(StatusLabel(InProgress), |StatusIds(db, caller, InProgress)|),
     Group(StatusLabel(Completed), |StatusIds(db, caller, Completed)|)]
  }

  function PriorityCounts(db: TaskDb, caller: UserId): seq<Group> {
    [Group(PriorityLabel(Low), |PriorityIds(db, caller, Low)|),
     Group(PriorityLabel(Medium), |PriorityIds(db, caller, Medium)|),
     Group(PriorityLabel(High), |PriorityIds(db, caller, High)|)]
  }

  /** The `$group` by status: the order of the groups is the database's to
      choose; this model lists them in declaration order. */
  function StatusGroups(db: TaskDb, caller: UserId): seq<Group> {
    NonEmpty(StatusCounts(db, caller))
  }

  function PriorityGroups(db: TaskDb, caller: UserId): seq<Group> {
    NonEmpty(PriorityCounts(db, caller))
  }

  lemma ThreeDistinct(x: Group, y: Group, z: Group)
    requires x.id != y.id && x.id != z.id && y.id != z.id
    ensures DistinctIds([x, y, z])
  {
  }

  /** The caller's tasks split by status. */
  lemma StatusPartition(db: TaskDb, caller: UserId)
    ensures |OwnedIds(db, caller)| ==
      |StatusIds(db, caller, Pending)| + |StatusIds(db, caller, InProgress)| + |StatusIds(db, caller, Completed)|
  {
    var a, b, c := StatusIds(db, caller, Pending), StatusIds(db, caller, InProgress), StatusIds(db, caller, Completed);
    assert a * b == {} && (a + b) * c == {};
    assert OwnedIds(db, caller) == a + b + c;
  }

  /** The caller's tasks split by priority. */
  lemma PriorityPartition(db: TaskDb, caller: UserId)
    ensures |OwnedIds(db, caller)| ==
      |PriorityIds(db, caller, Low)| + |PriorityIds(db, caller, Medium)| + |PriorityIds(db, caller, High)|
  {
    var a, b, c := PriorityIds(db, caller, Low), PriorityIds(db, caller, Medium), PriorityIds(db, caller, High);
    assert a * b == {} && (a + b) * c == {};
    assert OwnedIds(db, caller) == a + b + c;
  }

  /** A category has a group exactly when one of the caller's tasks is in it. */
  lemma StatusCountPositive(db: TaskDb, caller: UserId, s: Status)
    ensures |StatusIds(db, caller, s)| > 0 <==>
      exists k :: k in db.rows && db.rows[k].owner == caller && db.rows[k].status == s
  {
    if exists k :: k in db.rows && db.rows[k].owner == caller && db.rows[k].status == s {
      var k :| k in db.rows && db.rows[k].owner == caller && db.rows[k].status == s;
      assert k in StatusIds(db, caller, s);
    }
  }

  lemma PriorityCountPositive(db: TaskDb, caller: UserId, p: Priority)
    ensures |PriorityIds(db, caller, p)| > 0 <==>
      exists k :: k in db.rows && db.rows[k].owner == caller && db.rows[k].priority == p
  {
    if exists k :: k in db.rows && db.rows[k].owner == caller && db.rows[k].priority == p {
      var k :| k in db.rows && db.rows[k].owner == caller && db.rows[k].priority == p;
      assert k in PriorityIds(db, caller, p);
    }
  }

  /** The status grouping: one group per status present among the caller's
      tasks, carrying that status's count, and nothing else. */
  lemma StatusGroupsContent(db: TaskDb, caller: UserId)
    ensures forall g :: g in StatusGroups(db, caller) ==> g.count >= 1
    ensures forall s :: Group(StatusLabel(s), |StatusIds(db, caller, s)|) in StatusGroups(db, caller) <==>
      exists k :: k in db.rows && db.rows[k].owner == caller && db.rows[k].status == s
    ensures forall g :: g in StatusGroups(db, caller) ==>
      exists s :: g == Group(StatusLabel(s), |StatusIds(db, caller, s)|)
    ensures Total(StatusGroups(db, caller)) == |OwnedIds(db, caller)|
    ensures DistinctIds(StatusGroups(db, caller))
  {
    StatusPartition(db, caller);
    var gs := StatusCounts(db, caller);
    TotalOfThree(gs[0], gs[1], gs[2]);
    ThreeDistinct(gs[0], gs[1], gs[2]);
    assert gs == [gs[0], gs[1], gs[2]];
    forall s | true
      ensures Group(StatusLabel(s), |StatusIds(db, caller, s)|) in StatusGroups(db, caller) <==>
        exists k :: k in db.rows && db.rows[k].owner == caller && db.rows[k].status == s
    {
      StatusCountPositive(db, caller, s);
    }
  }

  /** The priority grouping, likewise. */
  lemma PriorityGroupsContent(db: TaskDb, caller: UserId)
    ensures forall g :: g in PriorityGroups(db, caller) ==> g.count >= 1
    ensures forall p :: Group(PriorityLabel(p), |PriorityIds(db, caller, p)|) in PriorityGroups(db, caller) <==>
      exists k :: k in db.rows && db.rows[k].owner == caller && db.rows[k].priority == p
    ensures forall g :: g in PriorityGroups(db, caller) ==>
      exists p :: g == Group(PriorityLabel(p), |PriorityIds(db, caller, p)|)
    ensures Total(PriorityGroups(db, caller)) == |OwnedIds(db, caller)|
    ensures DistinctIds(PriorityGroups(db, caller))
  {
    PriorityPartition(db, caller);
    var gs := PriorityCounts(db, caller);
    TotalOfThree(gs[0], gs[1], gs[2]);
    ThreeDistinct(gs[0], gs[1], gs[2]);
    assert gs == [gs[0], gs[1], gs[2]];
    forall p | true
      ensures Group(PriorityLabel(p), |PriorityIds(db, caller, p)|) in PriorityGroups(db, caller) <==>
        exists k :: k in db.rows && db.rows[k].owner == caller && db.rows[k].priority == p
    {
      PriorityCountPositive(db, caller, p);
    }
  }

  /** GET /tasks/stats/summary: per-status and per-priority counts of the
      caller's tasks, categories without a task omitted; each grouping's
      counts add up to the number of tasks the caller owns. */
  function TaskStats(caller: UserId, db: TaskDb): (r: Reply)
    ensures r.code == 200 && r.db == db && r.body.Summary?
    ensures forall g :: g in r.body.byStatus ==> g.count >= 1
    ensures forall g :: g in r.body.byPriority ==> g.count >= 1
    ensures forall s :: Group(StatusLabel(s), |StatusIds(db, caller, s)|) in r.body.byStatus <==>
      exists k :: k in db.rows && db.rows[k].owner == caller && db.rows[k].status == s
    ensures forall p :: Group(PriorityLabel(p), |PriorityIds(db, caller, p)|) in r.body.byPriority <==>
      exists k :: k in db.rows && db.rows[k].owner == caller && db.rows[k].priority == p
    ensures Total(r.body.byStatus) == |OwnedIds(db, caller)|
    ensures Total(r.body.byPriority) == |OwnedIds(db, caller)|
  {
    StatusGroupsContent(db, caller);
    PriorityGroupsContent(db, caller);
    Reply(200, Summary(StatusGroups(db, caller), PriorityGroups(db, caller)), db)
  }
}

=== FILE: task_controller_facts.dfy ===
/** Properties of the task handlers that relate a reply to the collection or
    relate several requests to each other. */
module TaskControllerFacts {
  import opened Common
  import opened TaskModel
  import opened TaskController
  import Strings
  import Sorting

  /** A stored task is listed exactly when the filter selects it. */
  lemma ListedIffSelected(caller: UserId, q: Query, db: TaskDb,
                          matches: (string, string) -> bool, nullsFirst: bool, k: TaskId)
    requires db.Valid() && k in db.rows
    ensures db.rows[k] in ListTasks(caller, q, db, matches, nullsFirst).body.items <==>
      Selected(db.rows[k], caller, q, matches)
  {
    var items := ListTasks(caller, q, db, matches, nullsFirst).body.items;
    if db.rows[k] in items {
      var i :| 0 <= i < |items| && items[i] == db.rows[k];
    }
  }

  /** Whatever the parameters, every listed task belongs to the caller. */
  lemma ListedTasksAreOwn(caller: UserId, q: Query, db: TaskDb,
                          matches: (string, string) -> bool, nullsFirst: bool)
    ensures forall t :: t in ListTasks(caller, q, db, matches, nullsFirst).body.items ==> t.owner == caller
  {
    var items := ListTasks(caller, q, db, matches, nullsFirst).body.items;
    forall t | t in items ensures t.owner == caller {
      var i :| 0 <= i < |items| && items[i] == t;
      assert Selected(items[i], caller, q, matches);
    }
  }

  /** A non-empty `status` keeps exactly the caller's tasks with that status
      label (and whatever the other parameters allow). */
  lemma StatusFilterExact(caller: UserId, q: Query, db: TaskDb,
                          matches: (string, string) -> bool, nullsFirst: bool, k: TaskId)
    requires db.Valid() && k in db.rows
    requires Provided(q.status) && !Provided(q.priority) && !Provided(q.search)
    ensures db.rows[k] in ListTasks(caller, q, db, matches, nullsFirst).body.items <==>
      db.rows[k].owner == caller && StatusLabel(db.rows[k].status) == q.status.value
  {
    ListedIffSelected(caller, q, db, matches, nullsFirst, k);
  }

  /** A non-empty `priority` keeps exactly the caller's tasks with that
      priority label. */
  lemma PriorityFilterExact(caller: UserId, q: Query, db: TaskDb,
                            matches: (string, string) -> bool, nullsFirst: bool, k: TaskId)
    requires db.Valid() && k in db.rows
    requires !Provided(q.status) && Provided(q.priority) && !Provided(q.search)
    ensures db.rows[k] in ListTasks(caller, q, db, matches, nullsFirst).body.items <==>
      db.rows[k].owner == caller && PriorityLabel(db.rows[k].priority) == q.priority.value
  {
    ListedIffSelected(caller, q, db, matches, nullsFirst, k);
  }

  /** With every filter parameter absent or empty, all of the caller's tasks
      and no one else's are listed. */
  lemma UnfilteredListsOwnTasks(caller: UserId, q: Query, db: TaskDb,
                                matches: (string, string) -> bool, nullsFirst: bool, k: TaskId)
    requires db.Valid() && k in db.rows
    requires !Provided(q.status) && !Provided(q.priority) && !Provided(q.search)
    ensures db.rows[k] in ListTasks(caller, q, db, matches, nullsFirst).body.items <==>
      db.rows[k].owner == caller
  {
    ListedIffSelected(caller, q, db, matches, nullsFirst, k);
  }

  /** `sort=priority` orders the priority labels as strings, which puts
      "high" before "low" before "medium". */
  lemma PriorityRankFollowsLabels(p: Priority, p': Priority)
    ensures PriorityRank(p) < PriorityRank(p') <==> Strings.StrLess(PriorityLabel(p), PriorityLabel(p'))
  {
    assert Strings.StrLess("high", "low");
    assert Strings.StrLess("low", "medium");
    assert Strings.StrLess("high", "medium");
    assert !Strings.StrLess("low", "high");
    assert !Strings.StrLess("medium", "low");
    assert !Strings.StrLess("medium", "high");
    assert !Strings.StrLess("low", "low") by { assert "low"[1..] == "ow"; assert "ow"[1..] == "w"; }
    assert !Strings.StrLess("high", "high") by {
      assert "high"[1..] == "igh"; assert "igh"[1..] == "gh"; assert "gh"[1..] == "h";
    }
    assert !Strings.StrLess("medium", "medium") by {
      assert "medium"[1..] == "edium"; assert "edium"[1..] == "dium"; assert "dium"[1..] == "ium";
      assert "ium"[1..] == "um"; assert "um"[1..] == "m";
    }
  }

  /** The listing order for each value of `sort`: newest first by default;
      due date ascending for "due-date" (undated tasks all on the side the
      database puts nulls); priority label ascending for "priority"; ties on
      the primary field broken newest first. */
  lemma ListOrder(caller: UserId, q: Query, db: TaskDb,
                  matches: (string, string) -> bool, nullsFirst: bool, i: nat, j: nat)
    requires var items := ListTasks(caller, q, db, matches, nullsFirst).body.items;
      i < j < |items|
    ensures var items := ListTasks(caller, q, db, matches, nullsFirst).body.items;
      var a, b := items[i], items[j];
      && (SelectOrder(q.sort) == Newest ==> a.createdAt >= b.createdAt)
      && (SelectOrder(q.sort) == ByDueDate ==>
            && (a.dueDate.Some? && b.dueDate.Some? ==> a.dueDate.value <= b.dueDate.value)
            && (a.dueDate == b.dueDate ==> a.createdAt >= b.createdAt)
            && (nullsFirst && a.dueDate.Some? ==> b.dueDate.Some?)
            && (!nullsFirst && a.dueDate.None? ==> b.dueDate.None?))
      && (SelectOrder(q.sort) == ByPriority ==>
            && !Strings.StrLess(PriorityLabel(b.priority), PriorityLabel(a.priority))
            && (a.priority == b.priority ==> a.createdAt >= b.createdAt))
  {
    var items := ListTasks(caller, q, db, matches, nullsFirst).body.items;
    var key := SortKey(SelectOrder(q.sort), nullsFirst);
    assert Sorting.KeyLe(key(items[i]), key(items[j]));
    PriorityRankFollowsLabels(items[j].priority, items[i].priority);
  }

  /** Existence is checked before ownership: for a missing id every caller
      gets the same 404, whatever the handler. */
  lemma MissingIdIsNotFoundForEveryone(a: UserId, b: UserId, id: TaskId, c: Changes, db: TaskDb, now: Date)
    requires id !in db.rows
    ensures GetTask(a, id, db) == GetTask(b, id, db) && GetTask(a, id, db).code == 404
    ensures UpdateTask(a, id, c, db, now) == UpdateTask(b, id, c, db, now)
    ensures DeleteTask(a, id, db) == DeleteTask(b, id, db)
  {
  }

  /** Another user's task is never returned, changed or deleted: the reply
      is 403 and the collection is unchanged. */
  lemma ForeignTaskForbidden(caller: UserId, id: TaskId, c: Changes, db: TaskDb, now: Date)
    requires id in db.rows && db.rows[id].owner != caller
    ensures GetTask(caller, id, db).code == 403 && !GetTask(caller, id, db).body.One?
    ensures UpdateTask(caller, id, c, db, now).code == 403 && UpdateTask(caller, id, c, db, now).db == db
    ensures DeleteTask(caller, id, db).code == 403 && DeleteTask(caller, id, db).db == db
  {
  }

  /** Tags sent on creation come back unchanged and in order when the task
      is fetched. */
  lemma CreatedTagsRoundTrip(caller: UserId, b: NewTaskBody, db: TaskDb, now: Date)
    ensures var r := CreateTask(caller, b, db, now);
      r.code == 201 ==>
        var got := GetTask(caller, r.body.task.id, r.db);
        got.code == 200 && got.body.task.tags == b.tags.GetOr([])
  {
  }
}

=== FILE: task_form.dfy ===
/** The create/edit task form: its initial contents, field edits, and the
    request a submission sends. The tags field holds text the user typed,
    except right after opening an existing task, when it holds the task's
    tag list itself. */
module TaskForm {
  import opened Common
  import opened Strings
  import opened TaskModel

  /** What `formData.tags` holds. */
  datatype TagsValue = TagText(text: string) | TagList(items: seq<string>)

  /** The form's fields; `dueDate` is None for a stored null. */
  datatype Form = Form(title: string, description: string, priority: string, status: string,
                       dueDate: Option<string>, tags: TagsValue)

  const DefaultForm := Form("", "", "medium", "pending", Some(""), TagText(""))

  /** The form opened for `initial`, or the blank form. A stored due date is
      shown through `dateText`, the text the server's date serialises to. */
  function InitialForm(initial: Option<Task>, dateText: Date -> string): (r: Form)
    ensures initial.None? ==> r == DefaultForm
    ensures initial.Some? ==>
      && r.title == initial.value.title && r.description == initial.value.description
      && r.priority == PriorityLabel(initial.value.priority) && r.status == StatusLabel(initial.value.status)
      && r.dueDate.Some? == initial.value.dueDate.Some?
      && (initial.value.dueDate.Some? ==> r.dueDate == Some(dateText(initial.value.dueDate.value)))
      && r.tags == TagList(initial.value.tags)
  {
    match initial
    case None => DefaultForm
    case Some(t) =>
      Form(t.title, t.description, PriorityLabel(t.priority), StatusLabel(t.status),
           if t.dueDate.Some? then Some(dateText(t.dueDate.value)) else None,
           TagList(t.tags))
  }

  datatype Field = Title | Description | PriorityField | StatusField | DueDate | Tags

  /** `handleChange`: the named field takes the input's text. */
  function Edit(f: Form, field: Field, value: string): (r: Form)
    ensures field == Title ==> r == f.(title := value)
    ensures field == Description ==> r == f.(description := value)
    ensures field == PriorityField ==> r == f.(priority := value)
    ensures field == StatusField ==> r == f.(status := value)
    ensures field == DueDate ==> r == f.(dueDate := Some(value))
    ensures field == Tags ==> r == f.(tags := TagText(value))
  {
    match field
    case Title => f.(title := value)
    case Description => f.(description := value)
    case PriorityField => f.(priority := value)
    case StatusField => f.(status := value)
    case DueDate => f.(dueDate := Some(value))
    case Tags => f.(tags := TagText(value))
  }

  /** Trims each part, keeping the parts' count and order. */
  function TrimAll(parts: seq<string>): (r: seq<string>)
    ensures |r| == |parts|
    ensures forall i :: 0 <= i < |r| ==> r[i] == Trim(parts[i])
  {
    if |parts| == 0 then [] else [Trim(parts[0])] + TrimAll(parts[1..])
  }

  /** Trimming parts that lack a character leaves them without it. */
  lemma TrimAllKeepsOut(parts: seq<string>, c: char)
    requires forall i :: 0 <= i < |parts| ==> c !in parts[i]
    ensures forall i :: 0 <= i < |parts| ==> c !in TrimAll(parts)[i]
  {
    forall i | 0 <= i < |parts| {
      TrimKeepsCharacters(parts[i], c);
    }
  }

  /** `text ? text.split(',').map(t => t.trim()) : []`: one tag per comma
      separated segment, trimmed, empty segments kept. */
  function ParseTags(text: string): (r: seq<string>)
    ensures text == "" ==> r == []
    ensures text != "" ==> |r| == Occurrences(text, ',') + 1
    ensures text != "" ==> forall i :: 0 <= i < |r| ==> r[i] == Trim(Split(text, ',')[i])
    ensures forall i :: 0 <= i < |r| ==> IsTrimmed(r[i]) && ',' !in r[i]
  {
    if text == "" then []
    else
      var parts := Split(text, ',');
      TrimAllKeepsOut(parts, ',');
      TrimAll(parts)
  }

  /** Trimming parts that are already trimmed changes nothing. */
  lemma TrimAllTrimmed(parts: seq<string>)
    requires forall i :: 0 <= i < |parts| ==> IsTrimmed(parts[i])
    ensures TrimAll(parts) == parts
  {
    forall i | 0 <= i < |parts| ensures TrimAll(parts)[i] == parts[i] {
      TrimTrimmed(parts[i]);
    }
  }

  /** Joined with commas and parsed back, a list of trimmed, comma-free tags
      is recovered; the one list that is lost is [""], which joins to the
      empty text. */
  lemma {:induction false} ParseJoinedTags(items: seq<string>)
    requires forall i :: 0 <= i < |items| ==> IsTrimmed(items[i]) && ',' !in items[i]
    requires items != [""]
    ensures ParseTags(Join(items, ',')) == items
  {
    if |items| > 0 {
      var text := Join(items, ',');
      assert text != "" by {
        if |items| == 1 {
          assert items == [items[0]];
        } else {
          assert text[|items[0]|] == ',';
        }
      }
      assert Split(text, ',') == items by {
        SplitJoin(items, ',');
      }
      assert TrimAll(items) == items by {
        TrimAllTrimmed(items);
      }
    }
  }

  /** The text an input shows for the field: an array shows its elements
      joined by commas. */
  function TagsText(v: TagsValue): (r: string)
    ensures v.TagText? ==> r == v.text
    ensures v.TagList? && v.items == [] ==> r == ""
  {
    match v
    case TagText(s) => s
    case TagList(items) => Join(items, ',')
  }

  /** The request body: every form field as is, with the tags parsed. */
  datatype Payload = Payload(title: string, description: string, priority: string, status: string,
                             dueDate: Option<string>, tags: seq<string>)

  datatype Method = Post | Put
  datatype Target = Collection | Item(id: TaskId)

  /** A submission either throws before any request is made, leaving the
      form's loading flag set, or sends one request. */
  datatype Submission = Thrown | Send(verb: Method, target: Target, payload: Payload)

  function Request(f: Form, initial: Option<Task>, tags: seq<string>): (r: Submission)
    ensures r.Send? && r.payload.tags == tags
    ensures r.payload == Payload(f.title, f.description, f.priority, f.status, f.dueDate, tags)
    ensures initial.None? <==> r.verb == Post
    ensures initial.None? ==> r.target == Collection
    ensures initial.Some? ==> r.target == Item(initial.value.id)
  {
    Send(if initial.Some? then Put else Post,
         if initial.Some? then Item(initial.value.id) else Collection,
         Payload(f.title, f.description, f.priority, f.status, f.dueDate, tags))
  }

  /** `handleSubmit` as written: `formData.tags.split` on a list is a
      TypeError, and a list is truthy even when empty. */
  function SubmitAsWritten(f: Form, initial: Option<Task>): (r: Submission)
    ensures r.Thrown? <==> f.tags.TagList?
    ensures f.tags.TagText? ==> r == Request(f, initial, ParseTags(f.tags.text))
  {
    match f.tags
    case TagList(_) => Thrown
    case TagText(s) => Request(f, initial, ParseTags(s))
  }

  /** `handleSubmit` reading the tags field as the text it displays. */
  function Submit(f: Form, initial: Option<Task>): (r: Submission)
    ensures r.Send?
    ensures SubmitAsWritten(f, initial).Send? ==> r == SubmitAsWritten(f, initial)
    ensures r.payload.title == f.title && r.payload.description == f.description
    ensures r.payload.priority == f.priority && r.payload.status == f.status && r.payload.dueDate == f.dueDate
    ensures forall i :: 0 <= i < |r.payload.tags| ==> IsTrimmed(r.payload.tags[i]) && ',' !in r.payload.tags[i]
    ensures f.tags.TagList? && f.tags.items == [] ==> r.payload.tags == []
  {
    Request(f, initial, ParseTags(TagsText(f.tags)))
  }

  /** As written, saving an opened task without retyping its tags always
      throws, whatever the task. */
  lemma UneditedSaveThrows(t: Task, dateText: Date -> string)
    ensures SubmitAsWritten(InitialForm(Some(t), dateText), Some(t)) == Thrown
  {
  }

  /** Once the tags field has been typed into, both readings send the same
      request. */
  lemma EditedTagsAgree(f: Form, initial: Option<Task>, value: string)
    ensures SubmitAsWritten(Edit(f, Tags, value), initial) == Submit(Edit(f, Tags, value), initial)
  {
  }

  /** Saving an opened task unchanged sends a PUT for that task carrying its
      own tags, provided they are trimmed and comma-free (as tags entered
      through the form are) and are not the single empty tag. */
  lemma UneditedSaveKeepsTags(t: Task, dateText: Date -> string)
    requires forall i :: 0 <= i < |t.tags| ==> IsTrimmed(t.tags[i]) && ',' !in t.tags[i]
    requires t.tags != [""]
    ensures var r := Submit(InitialForm(Some(t), dateText), Some(t));
      && r == Send(Put, Item(t.id), r.payload)
      && r.payload.tags == t.tags
      && r.payload.title == t.title && r.payload.description == t.description
      && r.payload.priority == PriorityLabel(t.priority) && r.payload.status == StatusLabel(t.status)
  {
    ParseJoinedTags(t.tags);
  }

  /** The blank form posts a new task with the defaults and no tags. */
  lemma BlankFormPosts()
    ensures Submit(DefaultForm, None) == Send(Post, Collection, Payload("", "", "medium", "pending", Some(""), []))
    ensures ParsePriority(Submit(DefaultForm, None).payload.priority) == Some(DefaultPriority)
    ensures ParseStatus(Submit(DefaultForm, None).payload.status) == Some(DefaultStatus)
  {
  }
}

=== FILE: task_model.dfy ===
/** The task document: its fields, their enumerations and defaults, the
    schema's validity rules, and how a new task is built from a request. */
module TaskModel {
  import opened Common
  import Strings

  type TaskId = nat
  type UserId = nat

  /** A point in time, in milliseconds. */
  type Date = int

  datatype Status = Pending | InProgress | Completed
  datatype Priority = Low | Medium | High

  const DefaultStatus: Status := Pending
  const DefaultPriority: Priority := Medium

  const TitleMin := 3
  const TitleMax := 100
  const DescriptionMax := 1000

  /** The string each status is stored and queried as. */
  function StatusLabel(s: Status): string {
    match s
    case Pending => "pending"
    case InProgress => "in-progress"
    case Completed => "completed"
  }

  function PriorityLabel(p: Priority): string {
    match p
    case Low => "low"
    case Medium => "medium"
    case High => "high"
  }

  /** The schema's `enum` check on a status string. */
  function ParseStatus(text: string): (r: Option<Status>)
    ensures r.Some? ==> StatusLabel(r.value) == text
    ensures forall s :: StatusLabel(s) == text ==> r == Some(s)
  {
    if text == "pending" then Some(Pending)
    else if text == "in-progress" then Some(InProgress)
    else if text == "completed" then Some(Completed)
    else None
  }

  /** The schema's `enum` check on a priority string. */
  function ParsePriority(text: string): (r: Option<Priority>)
    ensures r.Some? ==> PriorityLabel(r.value) == text
    ensures forall p :: PriorityLabel(p) == text ==> r == Some(p)
  {
    if text == "low" then Some(Low)
    else if text == "medium" then Some(Medium)
    else if text == "high" then Some(High)
    else None
  }

  datatype Task = Task(
    id: TaskId,
    title: string,
    description: string,
    owner: UserId,
    status: Status,
    priority: Priority,
    dueDate: Option<Date>,
    tags: seq<string>,
    createdAt: Date,
    updatedAt: Date)

  /** A stored title: already trimmed, 3 to 100 UTF-16 code units (the
      schema's length validators compare JavaScript's `.length`). */
  predicate ValidTitle(title: string) {
    Strings.IsTrimmed(title) && TitleMin <= Strings.JsLength(title) <= TitleMax
  }

  predicate ValidDescription(description: string) {
    Strings.JsLength(description) <= DescriptionMax
  }

  /** What the schema guarantees of every stored task (the owner, status and
      priority constraints are carried by the types). */
  predicate ValidTask(t: Task) {
    ValidTitle(t.title) && ValidDescription(t.description)
  }

  /** The schema's `trim` setter followed by its title validators. */
  function CastTitle(title: string): (r: Option<string>)
    ensures r.Some? ==> ValidTitle(r.value) && r.value == Strings.Trim(title)
    ensures r.None? <==> !(TitleMin <= Strings.JsLength(Strings.Trim(title)) <= TitleMax)
  {
    var t := Strings.Trim(title);
    if TitleMin <= Strings.JsLength(t) <= TitleMax then Some(t) else None
  }

  /** Two emoji make a valid title: each is a surrogate pair, so the
      trimmed title has length 4. */
  lemma PairedTitleAccepted()
    ensures Strings.JsLength("\U{1F525}\U{1F525}") == 4
    ensures CastTitle("\U{1F525}\U{1F525}") == Some("\U{1F525}\U{1F525}")
  {
    var t := "\U{1F525}\U{1F525}";
    assert Strings.Trim(t) == t by {
      Strings.TrimTrimmed(t);
    }
  }

  /** The fields a create request hands to the schema; absent ones are None. */
  datatype Draft = Draft(
    title: string,
    description: Option<string>,
    priority: Option<string>,
    dueDate: Option<Date>,
    tags: seq<string>)

  /** Builds the document for `d`: applies the setters and defaults, then the
      validators. None is a validation failure. */
  function NewTask(d: Draft, id: TaskId, owner: UserId, now: Date): (r: Option<Task>)
    ensures r.Some? <==>
      && CastTitle(d.title).Some?
      && ValidDescription(d.description.GetOr(""))
      && (d.priority.None? || ParsePriority(d.priority.value).Some?)
    ensures r.Some? ==>
      && ValidTask(r.value)
      && r.value.id == id && r.value.owner == owner
      && r.value.title == Strings.Trim(d.title)
      && r.value.description == d.description.GetOr("")
      && r.value.status == DefaultStatus
      && (d.priority.None? ==> r.value.priority == DefaultPriority)
      && (d.priority.Some? ==> PriorityLabel(r.value.priority) == d.priority.value)
      && r.value.dueDate == d.dueDate
      && r.value.tags == d.tags
      && r.value.createdAt == now && r.value.updatedAt == now
  {
    var title := CastTitle(d.title);
    var description := d.description.GetOr("");
    var priority := if d.priority.None? then Some(DefaultPriority) else ParsePriority(d.priority.value);
    if title.None? || !ValidDescription(description) || priority.None? then None
    else Some(Task(id, title.value, description, owner, DefaultStatus, priority.value,
                   d.dueDate, d.tags, now, now))
  }

  /** An update request's fields; None leaves the stored value as it is, and
      `dueDate` may be set to null with `Some(None)`. */
  datatype Changes = Changes(
    title: Option<string>,
    description: Option<string>,
    status: Option<string>,
    priority: Option<string>,
    dueDate: Option<Option<Date>>,
    tags: Option<seq<string>>)

  /** Only the fields an update may touch differ between `before` and
      `after`. */
  predicate OnlyEditableChanged(before: Task, after: Task) {
    after == before.(title := after.title, description := after.description, status := after.status,
                     priority := after.priority, dueDate := after.dueDate, tags := after.tags,
                     updatedAt := after.updatedAt)
  }

  /** Applies `c` to `t` through the setters and the update validators, which
      check only the fields being set. None is a validation failure. */
  function ApplyChanges(t: Task, c: Changes, now: Date): (r: Option<Task>)
    ensures r.Some? <==>
      && (c.title.None? || CastTitle(c.title.value).Some?)
      && (c.description.None? || ValidDescription(c.description.value))
      && (c.status.None? || ParseStatus(c.status.value).Some?)
      && (c.priority.None? || ParsePriority(c.priority.value).Some?)
    ensures r.Some? ==>
      && OnlyEditableChanged(t, r.value)
      && r.value.updatedAt == now
      && (ValidTask(t) ==> ValidTask(r.value))
      && (if c.title.Some? then r.value.title == Strings.Trim(c.title.value) else r.value.title == t.title)
      && r.value.description == c.description.GetOr(t.description)
      && (if c.status.Some? then StatusLabel(r.value.status) == c.status.value else r.value.status == t.status)
      && (if c.priority.Some? then PriorityLabel(r.value.priority) == c.priority.value else r.value.priority == t.priority)
      && r.value.dueDate == c.dueDate.GetOr(t.dueDate)
      && r.value.tags == c.tags.GetOr(t.tags)
  {
    var title := if c.title.None? then Some(t.title) else CastTitle(c.title.value);
    var description := c.description.GetOr(t.description);
    var status := if c.status.None? then Some(t.status) else ParseStatus(c.status.value);
    var priority := if c.priority.None? then Some(t.priority) else ParsePriority(c.priority.value);
    if title.None? || (c.description.Some? && !ValidDescription(description))
       || status.None? || priority.None?
    then None
    else Some(t.(title := title.value, description := description, status := status.value,
                 priority := priority.value, dueDate := c.dueDate.GetOr(t.dueDate),
                 tags := c.tags.GetOr(t.tags), updatedAt := now))
  }
}

=== FILE: task_stats_view.dfy ===
/** The statistics cards: the status and priority groups are folded into
    plain objects, then Total, Pending, In Progress and Completed are read
    off the status object. */
module TaskStatsView {
  import opened Common
  import opened TaskModel
  import TaskController

  type Group = TaskController.Group

  /** The stats response as the client keeps it; either grouping may be
      missing. */
  datatype StatsPayload = StatsPayload(byStatus: Option<seq<Group>>, byPriority: Option<seq<Group>>)

  /** A plain object: its properties in insertion order (the keys are
      status and priority labels, never array indices), keys distinct. */
  datatype Entry = Entry(key: string, value: nat)

  function KeySet(m: seq<Entry>): set<string> {
    if |m| == 0 then {} else {m[0].key} + KeySet(m[1..])
  }

  predicate DistinctKeys(m: seq<Entry>) {
    |m| == 0 || (m[0].key !in KeySet(m[1..]) && DistinctKeys(m[1..]))
  }

  /** `obj[k]`: the value of the property `k`, if there is one. */
  function Lookup(m: seq<Entry>, k: string): (r: Option<nat>)
    ensures r.Some? <==> k in KeySet(m)
    ensures r.Some? ==> Entry(k, r.value) in m
  {
    if |m| == 0 then None
    else if m[0].key == k then Some(m[0].value)
    else Lookup(m[1..], k)
  }

  /** `obj[k] = v`: overwrites the property in place if it exists, otherwise
      appends it. */
  function Put(m: seq<Entry>, k: string, v: nat): (r: seq<Entry>)
    requires DistinctKeys(m)
    ensures DistinctKeys(r)
    ensures KeySet(r) == KeySet(m) + {k}
  {
    if |m| == 0 then [Entry(k, v)]
    else if m[0].key == k then
      var r := [Entry(k, v)] + m[1..];
      assert r[1..] == m[1..];
      r
    else
      var rest := Put(m[1..], k, v);
      var r := [m[0]] + rest;
      assert r[1..] == rest;
      r
  }

  /** After `obj[k] = v`, `obj[k]` is `v` and every other property reads as
      before. */
  lemma {:induction false} PutLookup(m: seq<Entry>, k: string, v: nat)
    requires DistinctKeys(m)
    ensures Lookup(Put(m, k, v), k) == Some(v)
    ensures forall k' :: k' != k ==> Lookup(Put(m, k, v), k') == Lookup(m, k')
  {
    if |m| > 0 && m[0].key != k {
      PutLookup(m[1..], k, v);
      assert Put(m, k, v)[1..] == Put(m[1..], k, v);
    }
  }

  /** A property the object did not have goes after all the others. */
  lemma {:induction false} PutAppends(m: seq<Entry>, k: string, v: nat)
    requires DistinctKeys(m) && k !in KeySet(m)
    ensures Put(m, k, v) == m + [Entry(k, v)]
  {
    if |m| > 0 {
      PutAppends(m[1..], k, v);
      assert (m + [Entry(k, v)])[1..] == m[1..] + [Entry(k, v)];
    }
  }

  /** `groups.forEach(item => obj[item._id] = item.count)`, starting from {}. */
  function Collect(gs: seq<Group>): (r: seq<Entry>)
    ensures DistinctKeys(r)
  {
    if |gs| == 0 then []
    else Put(Collect(gs[..|gs| - 1]), gs[|gs| - 1].id, gs[|gs| - 1].count)
  }

  /** Reference reading of the fold: the count of the last group with this id. */
  function LastCount(gs: seq<Group>, k: string): Option<nat> {
    if |gs| == 0 then None
    else if gs[|gs| - 1].id == k then Some(gs[|gs| - 1].count)
    else LastCount(gs[..|gs| - 1], k)
  }

  /** Folding the groups keeps, for each id, the count of its last group. */
  lemma {:induction false} CollectKeepsLast(gs: seq<Group>, k: string)
    ensures Lookup(Collect(gs), k) == LastCount(gs, k)
  {
    if |gs| > 0 {
      CollectKeepsLast(gs[..|gs| - 1], k);
      PutLookup(Collect(gs[..|gs| - 1]), gs[|gs| - 1].id, gs[|gs| - 1].count);
    }
  }

  function SumValues(m: seq<Entry>): nat {
    if |m| == 0 then 0 else m[0].value + SumValues(m[1..])
  }

  lemma {:induction false} SumValuesAppend(m: seq<Entry>, e: Entry)
    ensures SumValues(m + [e]) == SumValues(m) + e.value
  {
    if |m| > 0 {
      assert (m + [e])[1..] == m[1..] + [e];
      SumValuesAppend(m[1..], e);
    }
  }

  lemma {:induction false} TotalAppend(gs: seq<Group>, g: Group)
    ensures TaskController.Total(gs + [g]) == TaskController.Total(gs) + g.count
  {
    if |gs| > 0 {
      assert (gs + [g])[1..] == gs[1..] + [g];
      TotalAppend(gs[1..], g);
    }
  }

  /** With distinct ids no group is overwritten, so the object's values add
      up to the groups' counts. */
  lemma {:induction false} CollectDistinctTotal(gs: seq<Group>)
    requires TaskController.DistinctIds(gs)
    ensures SumValues(Collect(gs)) == TaskController.Total(gs)
  {
    if |gs| > 0 {
      var init, last := gs[..|gs| - 1], gs[|gs| - 1];
      assert gs == init + [last];
      CollectDistinctTotal(init);
      CollectKeepsLast(init, last.id);
      LastCountAbsent(init, last.id);
      PutAppends(Collect(init), last.id, last.count);
      SumValuesAppend(Collect(init), Entry(last.id, last.count));
      TotalAppend(init, last);
    }
  }

  lemma {:induction false} LastCountAbsent(gs: seq<Group>, k: string)
    requires forall i :: 0 <= i < |gs| ==> gs[i].id != k
    ensures LastCount(gs, k).None?
  {
    if |gs| > 0 {
      LastCountAbsent(gs[..|gs| - 1], k);
    }
  }

  /** The four cards. */
  datatype Cards = Cards(total: nat, pending: nat, inProgress: nat, completed: nat)

  /** What the cards read off the status object, in terms of the groups. */
  lemma StatusObjectFacts(gs: seq<Group>)
    ensures Lookup(Collect(gs), StatusLabel(Pending)) == LastCount(gs, StatusLabel(Pending))
    ensures Lookup(Collect(gs), StatusLabel(InProgress)) == LastCount(gs, StatusLabel(InProgress))
    ensures Lookup(Collect(gs), StatusLabel(Completed)) == LastCount(gs, StatusLabel(Completed))
    ensures TaskController.DistinctIds(gs) ==> SumValues(Collect(gs)) == TaskController.Total(gs)
  {
    CollectKeepsLast(gs, StatusLabel(Pending));
    CollectKeepsLast(gs, StatusLabel(InProgress));
    CollectKeepsLast(gs, StatusLabel(Completed));
    if TaskController.DistinctIds(gs) {
      CollectDistinctTotal(gs);
    }
  }

  /** `TaskStats({ stats })`: nothing without stats; otherwise Total is the
      sum of the status object's values and each status card shows its
      count, 0 when the status is absent. */
  function Render(stats: Option<StatsPayload>): (r: Option<Cards>)
    ensures r.None? <==> stats.None?
    ensures r.Some? ==>
      var gs := stats.value.byStatus.GetOr([]);
      && r.value.pending == LastCount(gs, StatusLabel(Pending)).GetOr(0)
      && r.value.inProgress == LastCount(gs, StatusLabel(InProgress)).GetOr(0)
      && r.value.completed == LastCount(gs, StatusLabel(Completed)).GetOr(0)
      && (TaskController.DistinctIds(gs) ==> r.value.total == TaskController.Total(gs))
  {
    if stats.None? then None
    else
      var gs := stats.value.byStatus.GetOr([]);
      var statusMap := Collect(gs);
      StatusObjectFacts(gs);
      Some(Cards(SumValues(statusMap),
                 Lookup(statusMap, "pending").GetOr(0),
                 Lookup(statusMap, "in-progress").GetOr(0),
                 Lookup(statusMap, "completed").GetOr(0)))
  }

  /** With distinct ids, the last group with an id is the only one. */
  lemma {:induction false} LastCountOfDistinct(gs: seq<Group>, g: Group)
    requires TaskController.DistinctIds(gs) && g in gs
    ensures LastCount(gs, g.id) == Some(g.count)
  {
    var init, last := gs[..|gs| - 1], gs[|gs| - 1];
    if last != g {
      assert g in init by { assert gs == init + [last]; }
      assert last.id != g.id;
      LastCountOfDistinct(init, g);
    }
  }

  /** The count the dashboard shows for status `s`, given the server's
      status groups, is the number of the caller's tasks with that status. */
  lemma CardShowsStatusCount(caller: UserId, db: TaskController.TaskDb, s: Status)
    ensures var gs := TaskController.StatusGroups(db, caller);
      LastCount(gs, StatusLabel(s)).GetOr(0) == |TaskController.StatusIds(db, caller, s)|
  {
    var gs := TaskController.StatusGroups(db, caller);
    TaskController.StatusGroupsContent(db, caller);
    TaskController.StatusCountPositive(db, caller, s);
    var g := TaskController.Group(StatusLabel(s), |TaskController.StatusIds(db, caller, s)|);
    if g in gs {
      LastCountOfDistinct(gs, g);
    } else {
      forall i | 0 <= i < |gs| ensures gs[i].id != StatusLabel(s) {
        var s' :| gs[i] == TaskController.Group(StatusLabel(s'), |TaskController.StatusIds(db, caller, s')|);
        assert gs[i] in gs;
      }
      LastCountAbsent(gs, StatusLabel(s));
    }
  }

  /** End to end: the cards rendered from the stats reply show the caller's
      task total and the caller's per-status counts. */
  lemma CardsMatchStore(caller: UserId, db: TaskController.TaskDb)
    ensures var summary := TaskController.TaskStats(caller, db).body;
      var cards := Render(Some(StatsPayload(Some(summary.byStatus), Some(summary.byPriority))));
      && cards.Some?
      && cards.value.total == |TaskController.OwnedIds(db, caller)|
      && cards.value.pending == |TaskController.StatusIds(db, caller, Pending)|
      && cards.value.inProgress == |TaskController.StatusIds(db, caller, InProgress)|
      && cards.value.completed == |TaskController.StatusIds(db, caller, Completed)|
  {
    TaskController.StatusGroupsContent(db, caller);
    CardShowsStatusCount(caller, db, Pending);
    CardShowsStatusCount(caller, db, InProgress);
    CardShowsStatusCount(caller, db, Completed);
  }
}

=== FILE: task_store.dfy ===
/** The client's task store. Each action is one atomic transition from the
    state before the call to the state after the reply arrives; `isLoading`
    is true only while the call is in flight, so every such action ends with
    it false. */
module TaskStore {
  import opened Common
  import opened Remote
  import opened TaskModel
  import TaskController
  import TaskControllerFacts
  import TaskStatsView
  import Sorting

  datatype Filters = Filters(status: string, priority: string, search: string, sort: string)

  const NoFilters := Filters("", "", "", "")

  datatype State = State(tasks: seq<Task>, stats: Option<TaskStatsView.StatsPayload>,
                         isLoading: bool, filters: Filters)

  const Initial := State([], None, false, NoFilters)

  /** An action's resulting state and what it returns to its caller. */
  datatype Step<T> = Step(state: State, outcome: Outcome<T>)

  /** Replaces the filter record as a whole. */
  function SetFilters(s: State, f: Filters): (r: State)
    ensures r.filters == f
    ensures r.tasks == s.tasks && r.stats == s.stats && r.isLoading == s.isLoading
  {
    s.(filters := f)
  }

  /** The query parameters a fetch sends: the current filters, as given. */
  function FetchQuery(s: State): TaskController.Query {
    TaskController.Query(Some(s.filters.status), Some(s.filters.priority),
                         Some(s.filters.search), Some(s.filters.sort))
  }

  /** `fetchTasks`: on success the list becomes the server's list. */
  function FetchTasks(s: State, reply: Reply<seq<Task>>): (r: Step<()>)
    ensures !r.state.isLoading && r.state.filters == s.filters && r.state.stats == s.stats
    ensures reply.Delivered? ==> r.state.tasks == reply.data && r.outcome.Success?
    ensures reply.Refused? ==>
      r.state == s.(isLoading := false) && r.outcome == Failure(ErrorText(reply.message, "Failed to fetch tasks"))
  {
    match reply
    case Delivered(tasks) => Step(s.(tasks := tasks, isLoading := false), Success(()))
    case Refused(m) => Step(s.(isLoading := false), Failure(ErrorText(m, "Failed to fetch tasks")))
  }

  /** `fetchStats`: does not touch `isLoading`. */
  function FetchStats(s: State, reply: Reply<TaskStatsView.StatsPayload>): (r: Step<()>)
    ensures reply.Delivered? ==> r.state == s.(stats := Some(reply.data)) && r.outcome.Success?
    ensures reply.Refused? ==>
      r.state == s && r.outcome == Failure(ErrorText(reply.message, "Failed to fetch stats"))
  {
    match reply
    case Delivered(stats) => Step(s.(stats := Some(stats)), Success(()))
    case Refused(m) => Step(s, Failure(ErrorText(m, "Failed to fetch stats")))
  }

  /** `createTask`: the created task goes in front of the list. */
  function CreateTask(s: State, reply: Reply<Task>): (r: Step<Task>)
    ensures !r.state.isLoading && r.state.filters == s.filters && r.state.stats == s.stats
    ensures reply.Delivered? ==>
      && |r.state.tasks| == |s.tasks| + 1
      && r.state.tasks[0] == reply.data && r.state.tasks[1..] == s.tasks
      && r.outcome == Success(reply.data)
    ensures reply.Refused? ==>
      r.state == s.(isLoading := false) && r.outcome == Failure(ErrorText(reply.message, "Failed to create task"))
  {
    match reply
    case Delivered(t) => Step(s.(tasks := [t] + s.tasks, isLoading := false), Success(t))
    case Refused(m) => Step(s.(isLoading := false), Failure(ErrorText(m, "Failed to create task")))
  }

  /** `tasks.map(task => task._id === id ? updated : task)`. */
  function ReplaceById(tasks: seq<Task>, id: TaskId, updated: Task): (r: seq<Task>)
    ensures |r| == |tasks|
    ensures forall i :: 0 <= i < |tasks| ==> r[i] == (if tasks[i].id == id then updated else tasks[i])
  {
    if |tasks| == 0 then []
    else [if tasks[0].id == id then updated else tasks[0]] + ReplaceById(tasks[1..], id, updated)
  }

  /** `updateTask`: every task with the id is replaced by the server's copy,
      the others stay in place. */
  function UpdateTask(s: State, id: TaskId, reply: Reply<Task>): (r: Step<Task>)
    ensures !r.state.isLoading && r.state.filters == s.filters && r.state.stats == s.stats
    ensures reply.Delivered? ==>
      && |r.state.tasks| == |s.tasks|
      && (forall i :: 0 <= i < |s.tasks| && s.tasks[i].id == id ==> r.state.tasks[i] == reply.data)
      && (forall i :: 0 <= i < |s.tasks| && s.tasks[i].id != id ==> r.state.tasks[i] == s.tasks[i])
      && r.outcome == Success(reply.data)
    ensures reply.Refused? ==>
      r.state == s.(isLoading := false) && r.outcome == Failure(ErrorText(reply.message, "Failed to update task"))
  {
    match reply
    case Delivered(t) => Step(s.(tasks := ReplaceById(s.tasks, id, t), isLoading := false), Success(t))
    case Refused(m) => Step(s.(isLoading := false), Failure(ErrorText(m, "Failed to update task")))
  }

  /** `a` is `b` with some elements left out, the rest in their order. */
  predicate IsSubsequence(a: seq<Task>, b: seq<Task>) {
    if |a| == 0 then true
    else if |b| == 0 then false
    else if a[0] == b[0] then IsSubsequence(a[1..], b[1..])
    else IsSubsequence(a, b[1..])
  }

  function CountId(tasks: seq<Task>, id: TaskId): nat {
    if |tasks| == 0 then 0 else (if tasks[0].id == id then 1 else 0) + CountId(tasks[1..], id)
  }

  /** `tasks.filter(task => task._id !== id)`. */
  function RemoveById(tasks: seq<Task>, id: TaskId): (r: seq<Task>)
    ensures forall t :: t in r <==> t in tasks && t.id != id
    ensures IsSubsequence(r, tasks)
    ensures |r| + CountId(tasks, id) == |tasks|
  {
    if |tasks| == 0 then []
    else
      var rest := RemoveById(tasks[1..], id);
      if tasks[0].id == id then
        SubsequenceOfTail(rest, tasks);
        rest
      else [tasks[0]] + rest
  }

  lemma {:induction false} SubsequenceOfTail(a: seq<Task>, b: seq<Task>)
    requires |b| > 0 && IsSubsequence(a, b[1..])
    ensures IsSubsequence(a, b)
  {
    if |a| > 0 && a[0] == b[0] {
      SubsequenceDropFirst(a, b[1..]);
    }
  }

  lemma {:induction false} SubsequenceDropFirst(a: seq<Task>, b: seq<Task>)
    requires |a| > 0 && IsSubsequence(a, b)
    ensures IsSubsequence(a[1..], b)
  {
    if |b| > 0 {
      if a[0] == b[0] {
        SubsequenceOfTail(a[1..], b);
      } else {
        SubsequenceDropFirst(a, b[1..]);
        SubsequenceOfTail(a[1..], b);
      }
    }
  }

  /** `deleteTask`: the tasks with the id leave the list, the others keep
      their relative order. */
  function DeleteTask(s: State, id: TaskId, reply: Reply<()>): (r: Step<()>)
    ensures !r.state.isLoading && r.state.filters == s.filters && r.state.stats == s.stats
    ensures reply.Delivered? ==>
      && (forall t :: t in r.state.tasks <==> t in s.tasks && t.id != id)
      && IsSubsequence(r.state.tasks, s.tasks)
      && |r.state.tasks| == |s.tasks| - CountId(s.tasks, id)
      && r.outcome.Success?
    ensures reply.Refused? ==>
      r.state == s.(isLoading := false) && r.outcome == Failure(ErrorText(reply.message, "Failed to delete task"))
  {
    match reply
    case Delivered(_) => Step(s.(tasks := RemoveById(s.tasks, id), isLoading := false), Success(()))
    case Refused(m) => Step(s.(isLoading := false), Failure(ErrorText(m, "Failed to delete task")))
  }

  /** With the initial (all empty) filters, a fetch lists every task of the
      caller and no one else's. */
  lemma InitialFetchListsOwnTasks(caller: UserId, db: TaskController.TaskDb,
                                  matches: (string, string) -> bool, nullsFirst: bool, k: TaskId)
    requires db.Valid() && k in db.rows
    ensures db.rows[k] in TaskController.ListTasks(caller, FetchQuery(Initial), db, matches, nullsFirst).body.items
      <==> db.rows[k].owner == caller
  {
    TaskControllerFacts.UnfilteredListsOwnTasks(caller, FetchQuery(Initial), db, matches, nullsFirst, k);
  }

  /** After the filters are set to `f`, a fetch whose reply is the server's
      listing holds exactly the caller's tasks that `f` selects, an empty
      field selecting everything, in the order `f.sort` picks. */
  lemma FetchListsSelected(s: State, f: Filters, caller: UserId, db: TaskController.TaskDb,
                           matches: (string, string) -> bool, nullsFirst: bool, k: TaskId)
    requires db.Valid() && k in db.rows
    ensures var s' := SetFilters(s, f);
      var listing := TaskController.ListTasks(caller, FetchQuery(s'), db, matches, nullsFirst);
      var r := FetchTasks(s', Delivered(listing.body.items)).state;
      var t := db.rows[k];
      && r.filters == f
      && (t in r.tasks <==>
            && t.owner == caller
            && (f.status != "" ==> StatusLabel(t.status) == f.status)
            && (f.priority != "" ==> PriorityLabel(t.priority) == f.priority)
            && (f.search != "" ==> matches(f.search, t.title) || matches(f.search, t.description)))
      && Sorting.SortedBy(r.tasks, TaskController.SortKey(TaskController.SelectOrder(Some(f.sort)), nullsFirst))
  {
    TaskControllerFacts.ListedIffSelected(caller, FetchQuery(SetFilters(s, f)), db, matches, nullsFirst, k);
  }

  /** Stats fetched from the server make the cards show the caller's task
      total and per-status counts; the task list is not touched. */
  lemma FetchedStatsShowOwnCounts(s: State, caller: UserId, db: TaskController.TaskDb)
    ensures var summary := TaskController.TaskStats(caller, db).body;
      var payload := TaskStatsView.StatsPayload(Some(summary.byStatus), Some(summary.byPriority));
      var r := FetchStats(s, Delivered(payload)).state;
      var cards := TaskStatsView.Render(r.stats);
      && r.tasks == s.tasks && r.filters == s.filters
      && cards.Some?
      && cards.value.total == |TaskController.OwnedIds(db, caller)|
      && cards.value.pending == |TaskController.StatusIds(db, caller, Pending)|
      && cards.value.inProgress == |TaskController.StatusIds(db, caller, InProgress)|
      && cards.value.completed == |TaskController.StatusIds(db, caller, Completed)|
  {
    TaskStatsView.CardsMatchStore(caller, db);
  }

  /** Removing an id no task carries leaves the list as it was. */
  lemma {:induction false} RemoveAbsentId(tasks: seq<Task>, id: TaskId)
    requires forall i :: 0 <= i < |tasks| ==> tasks[i].id != id
    ensures RemoveById(tasks, id) == tasks
  {
    if |tasks| > 0 {
      RemoveAbsentId(tasks[1..], id);
    }
  }

  /** Deleting a task just created, whose id was new to the list, restores
      the list the creation started from. */
  lemma CreateThenDelete(s: State, t: Task)
    requires forall i :: 0 <= i < |s.tasks| ==> s.tasks[i].id != t.id
    ensures DeleteTask(CreateTask(s, Delivered(t)).state, t.id, Delivered(())).state.tasks == s.tasks
  {
    var created := CreateTask(s, Delivered(t)).state.tasks;
    assert created == [t] + s.tasks;
    assert created[1..] == s.tasks;
    RemoveAbsentId(s.tasks, t.id);
  }

  /** An update keeps the list's ids where they were when the server's copy
      carries the requested id. */
  lemma UpdateKeepsIds(s: State, id: TaskId, t: Task)
    requires t.id == id
    ensures var r := UpdateTask(s, id, Delivered(t)).state.tasks;
      |r| == |s.tasks| && forall i :: 0 <= i < |r| ==> r[i].id == s.tasks[i].id
  {
  }
}
